=== FILE: README.md ===
# human-chess: the deterministic core, in Dafny

This project models the deterministic logic around the machine-learning,
engine and I/O code of the human-chess repository. Every operation is a pure
function over immutable datatypes. Where an operation has an inverse, a
reference definition or an invariant it keeps, a lemma or contract connects
the two. Where the code as written departs from what it evidently intends,
both versions are modelled and related (see Findings).

- **Board encoder** (`Encoder`, `encoder.dfy`). This is
  `fen_to_tensor`, which has six copies in the repository. It turns a piece
  placement into a one-hot 0/1 tensor. The layer is the piece's index in
  P, N, B, R, Q, K, plus 6 for Black. The channel-first copies
  (`src/dataset.py`, `app.py`) write cell [layer][rank][file]. The
  channel-last copies (`src/train_model.py`, `src/api.py`,
  `src/predict_position.py`, `src/human_engine.py`) write cell
  [rank][file][layer]. The four channel-last copies compute the same thing,
  so they are modelled once (`Encoder.FenToTensorLast`). Squares follow
  python-chess: square s lies on rank s / 8 and file s % 8. The model proves
  several properties: the one-hot shape, and that exactly one cell is set per
  piece. It proves a decoding round trip for each layout: a loop over the
  squares reads each square's 12-layer column back. It also proves that the
  channel-last tensor is the transpose of the channel-first one.
- **Training-label extraction** (`LabelExtraction`, `labels.dfy`). This is
  `process_single_game`. It validates the Elo headers with Python's `int()`
  (`Decimal`). For each move it picks the mover's Elo and scores the human
  move from one of three sources. It records best score, human score,
  difference and blunder flag. The engine is an oracle that returns
  candidate lines with integer scores, and either engine call may raise.
- **UCI front end** (`UciFrontEnd`, `uci.dfy`). UCI is the Universal Chess
  Interface. This is `uci_loop` and `get_best_move`, modelled as a fold over
  input lines that yields the printed lines. The state is the move tokens
  applied to the standard start, plus a running flag. `push_uci` legality
  and the engine analysis are oracles. Python's `str.split()` is modelled
  exactly, with the whitespace set of `str.isspace`. `int()` skips a
  smaller set around a header (`Decimal`).
- **Dataset and training pairing** (`Dataset`, `TrainModel`, `dataset.dfy`).
  This covers row filtering, `__len__` and `__getitem__` of
  `HumanChessDataset`, and the row-by-row pairing of features and labels in
  `src/train_model.py`.
- **Service front ends** (`AppService`, `ApiService`, `PredictPosition`,
  `services.dfy`). This covers guard order, echoed fields, error bodies and
  verdict choice. Network outputs are opaque reals supplied by an oracle.

FEN parsing is an oracle `string -> Attempt<Placement>`. `Attempt` is
either a returned value or a raised exception with its message. The browser
UI (branching history, engine-request supersession, move heatmap) is not in
the Python files and is not modelled. The UCI loop ignores a `fen` argument
to `position` and always restarts from the standard position, because that
is what `src/human_engine.py` does.

## Model

| member | source | states |
|---|---|---|
| `Encoder.KindIndex` | src/dataset.py:18-21 | Each piece kind's index lies in 0..5. |
| `Encoder.LayerOf` | src/dataset.py:26-28 | The layer lies in 0..11. It is below 6 exactly for White pieces, and it is congruent to the kind's index modulo 6. |
| `Encoder.PieceOfLayer` | src/dataset.py:16-21 | Every layer 0..11 names a piece whose layer it is. |
| `Encoder.LayerRoundTrip` | src/dataset.py:16-28 | Decoding a piece's layer gives the piece back, so distinct pieces use distinct layers. |
| `Encoder.FillFirst` | src/dataset.py:23-29 | After the loop has visited squares 63 down to k, cell [l][r][f] is 1 exactly when square (r, f) is at least k and holds the layer-l piece. Every other cell is 0. |
| `Encoder.FenToTensorFirst` | src/dataset.py:8-31 | The result is 12×8×8, and cell [layer][rank][file] is 1 exactly when that square holds that layer's piece. Each square has at most one set layer, and an empty square has none. |
| `Encoder.OnesCountFirst` | src/dataset.py:23-29 | The channel-first tensor has as many 1-cells as the board has pieces. |
| `Encoder.DecodeRecovers` | src/dataset.py:23-29 | When every square's 12-layer column is the one-hot image of its content, reading squares k..63 back gives exactly the pieces on those squares. |
| `Encoder.EncodingDecodesFirst` | src/dataset.py:23-29 | Every tensor that satisfies the channel-first encoding of a placement decodes to that placement. |
| `Encoder.DecodeFirstInverts` | src/dataset.py:23-29 | Decoding the channel-first tensor gives back the exact placement. |
| `Encoder.FillLast` | src/human_engine.py:32-38 | This is the channel-last loop invariant: after squares 63 down to k, cell [r][f][l] is 1 exactly for the pieces on squares k and above. |
| `Encoder.FenToTensorLast` | src/train_model.py:12-26 | The result is 8×8×12, and cell [rank][file][layer] is 1 exactly when that square holds that layer's piece. Each square has at most one set layer, and an empty square has none. |
| `Encoder.OnesCountLast` | src/predict_position.py:16-22 | The channel-last tensor has as many 1-cells as the board has pieces. |
| `Encoder.EncodingDecodesLast` | src/api.py:45-51 | Every tensor that satisfies the channel-last encoding of a placement decodes to that placement. |
| `Encoder.DecodeLastInverts` | src/api.py:45-51 | Decoding the channel-last tensor gives back the exact placement. |
| `Encoder.LastIsTransposeOfFirst` | src/dataset.py:17-29 | For every index, the channel-last tensor's [r][f][l] equals the channel-first tensor's [l][r][f]. |
| `Chess.Rank` | src/dataset.py:24 | A square's rank lies in 0..7. |
| `Chess.File` | src/dataset.py:25 | A square's file lies in 0..7. |
| `Chess.SquareAt` | src/dataset.py:24-25 | The square built from a rank and a file has that rank and that file. |
| `Chess.Turn` | src/process_data.py:74 | The side to move is the root's side exactly after an even number of pushes. |
| `Chess.Push` | src/process_data.py:82 | A push appends the move, keeps the root, and passes the turn to the opponent. |
| `Chess.Pop` | src/process_data.py:100 | Pushing back the last move undoes a pop. |
| `Chess.PopAfterPush` | src/process_data.py:94-100 | A pop right after a push restores the position before the push. |
| `Decimal.NatToString` | src/human_engine.py:53 | The text is a non-empty run of digits with no leading zero, and its value is n. |
| `Decimal.IntToString` | src/process_data.py:64-66 | The reference inverse of the `int()` calls at these lines, which contain no `str()` themselves: Python's `str(i)` for any integer. The text ends in a digit, and it starts with '-' exactly for negative numbers. |
| `Decimal.ParseInt` | src/process_data.py:64-68 | A header is accepted exactly when, with the whitespace `int()` skips removed from both ends (ASCII space, tab, newline, carriage return, vertical tab, form feed and non-ASCII whitespace, but not the separators U+001C to U+001F), it is a digit or a sign followed by a digit, then digits and single underscores, ending in a digit. Text starting with '-' gives a value of at most 0, other text at least 0. A header without any digit, such as "?" or "", is rejected. |
| `Decimal.ParseIntDigits` | src/process_data.py:65-66 | A bare run of digits is read as the number it denotes. |
| `Decimal.ParseIntPlus` | src/process_data.py:65-66 | A `+` in front of digit groups does not change the value ("+1500" is 1500). |
| `Decimal.ParseIntMinus` | src/process_data.py:65-66 | A `-` in front of digit groups is accepted and negates the value of the groups ("-01500" is -1500). |
| `Decimal.ParseIntLeadingZeros` | src/process_data.py:65-66 | Leading zeros do not change the value ("01500" is 1500). |
| `Decimal.ParseIntUnderscore` | src/process_data.py:65-66 | A single underscore between two digit groups does not change the value ("1_000_000" reads as "1_000000" and so as 1000000). Together with the sign, leading-zero, padding and digit-run rows, this gives the value of every accepted header. |
| `Decimal.ParseIntPadded` | src/process_data.py:64-66 | Whitespace of the kind `int()` skips around the text does not change the result, accepted or not. |
| `Decimal.ParseIntRejects` | src/process_data.py:65-68 | Any character after the first that is neither a digit nor an underscore, such as a letter, a point or a comma ("15OO", "1500.0", "1,500"), makes the header invalid. |
| `Decimal.ParseIntRoundTrip` | src/process_data.py:64-66 | `int()` reads back every integer's decimal text, with or without surrounding whitespace of the kind `int()` skips. |
| `Decimal.ParseIntKeepsSeparators` | src/process_data.py:64-68 | A separator U+001C to U+001F in front of the text is not skipped, although `str.isspace` accepts it, so the header is rejected. |
| `Decimal.StripLeft` | src/process_data.py:65 | The result is a suffix of the input. Everything dropped is whitespace `int()` skips, and the result does not start with such whitespace. |
| `Decimal.StripRight` | src/process_data.py:65 | The result is a prefix of the input. Everything dropped is whitespace `int()` skips, and the result does not end with such whitespace. |
| `LabelExtraction.HeaderOr` | src/process_data.py:57-58 | A present header gives its value, and a missing one gives "?". |
| `LabelExtraction.MoverElo` | src/process_data.py:74 | The Elo is White's when White is to move, and Black's when Black is. |
| `LabelExtraction.AnalysePosition` | src/process_data.py:29-41 | There is no best move exactly when there is no engine or the analysis is empty. The call raises exactly when the engine raises or the first line has no moves. Otherwise the result is the first line's first move and score. |
| `LabelExtraction.MatchedScore` | src/process_data.py:87-91 | A score is found exactly when some line has the played move as its first move, every earlier line having a different first move; it is that line's score. The result is None exactly when every line has a different first move. It raises exactly when a line without moves comes before any line with the played move. |
| `LabelExtraction.MakeRecord` | src/process_data.py:102-112 | The record stores the best and human scores with best = human + diff. is_blunder is 1 exactly when diff > 100 and 0 otherwise, and complexity is 0. |
| `LabelExtraction.FallbackScore` | src/process_data.py:96-99 | The fallback is the negated post-move evaluation, or −9999 when that evaluation cannot be read. |
| `LabelExtraction.ProcessMoveAsWritten` | src/process_data.py:73-118 | As written, the record is the corrected step's. The played move is pushed twice exactly when no analysed line has it and the depth-5 analysis raises, and once otherwise. |
| `LabelExtraction.ProcessMove` | src/process_data.py:73-118 | The board advances by exactly the played move. A record is made exactly when the analysis returns lines, the first line has a move, and either some line has the played move or none has it and the depth-5 analysis returns. A record's fen is the position before the move, and its elo is the mover's. Its human score comes from one of the three sources. There is no record without an engine or with an empty or failing analysis. |
| `LabelExtraction.AsWrittenAgreesOffErrorPath` | src/process_data.py:93-100 | The code as written and the corrected step agree whenever the depth-5 analysis does not raise after a failed search. |
| `LabelExtraction.DoublePushWitness` | src/process_data.py:94-118 | For one concrete engine, the code as written pushes the played move twice, while the corrected step pushes it once. |
| `LabelExtraction.Walk` | src/process_data.py:70-120 | With the corrected step, the final board is the root plus all moves. There are at most as many records as moves, and every record is well formed. Every record's fen is the position before one of the moves. |
| `LabelExtraction.WalkRecordsInOrder` | src/process_data.py:73-118 | With the corrected step, the records are, in move order, exactly the records the single iterations make at the positions before each move. |
| `LabelExtraction.WalkAsWritten` | src/process_data.py:70-120 | As written, there are at most as many records as moves, and every record is well formed. |
| `LabelExtraction.WalkAsWrittenAgrees` | src/process_data.py:93-118 | When the depth-5 analysis never raises after a failed search along the game, the loop as written and the corrected loop give the same records and board. |
| `LabelExtraction.ProcessSingleGame` | src/process_data.py:43-120 | A game with a missing or "?" Elo header yields no records, and so does a non-integer header. With integer headers the records are those of the loop as written, and every record carries the mover's parsed Elo. |
| `LabelExtraction.GameRecords` | src/process_data.py:43-120 | For a game with integer headers on which the depth-5 analysis never raises after a failed search, the records are, in move order, the records of the single iterations. |
| `UciFrontEnd.TokenEnd` | src/human_engine.py:110 | A token runs up to the next whitespace character or the end of the line. |
| `UciFrontEnd.Split` | src/human_engine.py:110 | Tokens are non-empty and contain no whitespace. Together they hold exactly the line's non-whitespace characters, in order. |
| `UciFrontEnd.SplitJoinSpaced` | src/human_engine.py:110 | Splitting a command written with single spaces gives its tokens back. |
| `UciFrontEnd.SplitSkipsSpace` | src/human_engine.py:110 | Leading whitespace does not change the tokens. |
| `UciFrontEnd.SplitInterleave` | src/human_engine.py:110 | Tokens are maximal: tokens separated by any non-empty whitespace, with any whitespace around them, split back into exactly those tokens. |
| `UciFrontEnd.IndexOf` | src/human_engine.py:124 | The result is the first position of the token. |
| `UciFrontEnd.MovesArgument` | src/human_engine.py:123-125 | The candidates are everything after the first `moves` token, or nothing when there is none. Anything before `moves` is ignored. |
| `UciFrontEnd.Accepted` | src/human_engine.py:125-126 | Every counted token was legal after the ones before it, and the first uncounted token was rejected. |
| `UciFrontEnd.AcceptedFromStart` | src/human_engine.py:122-126 | Accepting candidates from the standard start is pushing them until the first rejection. |
| `UciFrontEnd.PositionMoves` | src/human_engine.py:119-126 | The board is reset to the start and then gets every candidate in order up to the first rejected one. The moves applied before that stay. |
| `UciFrontEnd.GetBestMove` | src/human_engine.py:41-101 | An empty analysis gives None and prints nothing. Otherwise the candidate count is printed first, and the result is the first line's first move. It raises exactly when some line has no moves. |
| `UciFrontEnd.GoLines` | src/human_engine.py:127-129 | On an empty analysis `go` prints `bestmove None`. Otherwise it prints the candidate count, then `bestmove` and the first line's first move. If the engine raises it prints nothing, and if a line has no moves it prints only the count. |
| `UciFrontEnd.Step` | src/human_engine.py:105-134 | `uci` prints the three identification lines in order, and `isready` prints `readyok`. Neither changes the state. `position` rebuilds the board as above. `go` keeps the state and prints the `go` lines. `quit` stops the loop. Empty, blank and unknown lines change nothing and print nothing. |
| `UciFrontEnd.Read` | src/human_engine.py:105-134 | A line read is handled by one pass of the body. As written, end of input (EOFError, swallowed at lines 133-134) changes nothing and prints nothing. When end of input is made to end the loop, it acts exactly as a `quit` line. |
| `UciFrontEnd.Run` | src/human_engine.py:103-134 | A stopped loop reads nothing more. With `RunOne` and `RunAppend` this fixes the loop's result on every sequence of reads. |
| `UciFrontEnd.RunOne` | src/human_engine.py:104-134 | A running loop hands its next read to `Read`, the body of one pass: a line is dispatched by `Step`, and end of input is handled as `Read` states. A stopped loop reads nothing. |
| `UciFrontEnd.RunAppend` | src/human_engine.py:104-134 | Reading one input and then another is reading both in sequence: the state carries over and the outputs concatenate. |
| `UciFrontEnd.QuitEndsLoop` | src/human_engine.py:130-131 | After `quit`, no later input is processed and the loop has stopped. |
| `UciFrontEnd.RunsUntilQuit` | src/human_engine.py:104-134 | As written, without a `quit` line the loop keeps running, whatever it reads, end of input included. |
| `UciFrontEnd.EofNeverEndsLoop` | src/human_engine.py:104-134 | As written, any number of reads at end of input after any input changes neither the state nor the output. |
| `UciFrontEnd.EofEndsLoop` | src/human_engine.py:130-134 | When end of input ends the loop, the loop has stopped after it, and the output is what the earlier lines printed. |
| `UciFrontEnd.RunWithoutEof` | src/human_engine.py:104-134 | On inputs without an end of input, the loop as written and the loop that stops at end of input behave identically. |
| `UciFrontEnd.OnlyPositionMovesBoard` | src/human_engine.py:113-131 | Inputs other than `position` lines never change the board. |
| `UciFrontEnd.Session` | src/human_engine.py:103-134 | A session that stops at end of input always ends, and it prints exactly what the loop as written prints for its input lines. |
| `Dataset.Kept` | src/dataset.py:44-45 | Every kept row is complete, and a row is kept exactly when it is complete. A single row is kept exactly when it is complete. |
| `Dataset.KeptAppend` | src/dataset.py:45 | Dropping keeps the file order: the rows kept from two pieces of the file are those of the first piece followed by those of the second. |
| `Dataset.KeptCount` | src/dataset.py:45 | The number of kept rows equals the number of complete row positions. |
| `Dataset.Len` | src/dataset.py:48-49 | `__len__` counts the rows in which fen, elo and is_blunder are all present. |
| `Dataset.GetItem` | src/dataset.py:51-68 | Out-of-range indices raise. Negative indices count from the end. Otherwise the result is kept row i's channel-first encoding, its elo/3000 and its is_blunder, or the error from the FEN parser. |
| `TrainModel.BoardInputs` | src/train_model.py:68 | The result has one channel-last tensor per row, in row order. It raises exactly when some FEN is missing or rejected. |
| `TrainModel.ScaledElo` | src/train_model.py:69 | The scaled Elo times 3000 is the Elo, and a NaN stays NaN. |
| `TrainModel.PrepareTrainingData` | src/train_model.py:67-70 | Boards, Elo values and labels have one entry per row. Entry i of each belongs to row i. |
| `AppService.FenToBatchedTensor` | app.py:32-53 | The result has a batch dimension of size 1 around the channel-first encoding. |
| `AppService.Predict` | app.py:55-74 | A missing model gives its message whatever the FEN. A rejected FEN gives "Invalid FEN string.". Otherwise Blunder is the network output and Blunder + Safe = 1. |
| `ApiService.ReadRoot` | src/api.py:58-60 | The status is "ok", and model_loaded is true exactly when a model is loaded. |
| `ApiService.Predict` | src/api.py:62-86 | With no model, only the error is returned. Any exception becomes `{error: message}`. A success echoes fen and elo, and is_risky holds exactly when the probability is above 0.5. |
| `PredictPosition.Main` | src/predict_position.py:25-56 | Without an argument the start FEN is analysed and the usage line is printed. Otherwise the first argument is analysed. A load failure ends the run before any analysis, and a rejected FEN ends it with the constructor's error. With a model and a board, the prediction is made; if reading the side's name at line 52 raises the run ends there, and otherwise the report names that side and gives the prediction. The high-error message is printed exactly when prob > 0.5, and the stable one otherwise. |

## Left out

- Neural networks and training are left out (`src/model.py`, `src/train.py`, `build_model` and `fit`, all torch and keras inference). They are floating-point numerics behind foreign libraries. Probabilities are opaque reals returned by oracles.
- Stockfish is not modelled: the subprocess, `popen_uci`, `analyse` and the mate-score mapping. Neither are python-chess's FEN parsing, `board.fen()` rendering, move legality, `push_uci` and `piece_map`. These are foreign code, and they appear only as oracle parameters. A record keeps its position rather than the rendered FEN.
- `process_games_multiprocess` and `init_worker` are left out. They are PGN file reading, a process pool and CSV writing.
- `src/download_games.py` is left out. It is HTTP and file concatenation.
- The Gradio UI of `app.py` and the FastAPI, CORS and uvicorn setup of `src/api.py` are left out. `load_ai_model` is reduced to whether a model is present.
- `src/test_engine.py` is left out. It is an integration smoke test that needs a Stockfish binary.
- `HumanEngine.__init__` is reduced to the initial state (standard start, loop running). Starting the engine and loading the model are I/O.
- Tensors hold the integers 0 and 1 in place of float32 values. Elo scaling uses exact reals, so float rounding is not modelled.
- The occupied squares are visited from 63 down to 0, which is python-chess's order. The encoder's contracts do not depend on the order.
- `Decimal.ParseInt` rejects non-ASCII decimal digits, which Python's `int()` would accept. Elo headers are ASCII. It also has no length limit. CPython's `int()` raises ValueError on decimal text of more than 4300 digits (`sys.int_info.default_max_str_digits`), which the handler at src/process_data.py:67-68 would catch. So `ParseInt`'s "accepted exactly when" and the `ParseInt*` value lemmas hold only for headers of at most 4300 digits. Elo headers are far shorter.
- `Decimal.IntToString` has no length limit either. CPython's `str()` raises on integers of more than 4300 digits, so `IntToString` and `Decimal.ParseIntRoundTrip` describe Python only for |i| < 10^4300.
- `Base.Line` always carries a score, so a missing `score` key, which raises KeyError in the source, is not modelled. This affects `LabelExtraction.AnalysePosition` (lines 29-41), `LabelExtraction.MatchedScore` (lines 87-91) and `UciFrontEnd.GetBestMove` (src/human_engine.py:61).
- `AppService.Predict` treats the network call as total. An exception raised inside it is uncaught in `app.py`, and it is not modelled.
- `PredictPosition.Main`: whether python-chess's `Board` has a `turn_name` attribute is outside this model. The read at line 52 is the parameter `turnName`, which may raise. `Main` also treats `model.predict` as total. It does not model the printed board diagram, the `{prob:.4f}` formatting or the progress lines.
- `Chess.Push` appends the move whatever the board holds. What python-chess's `push` does with a move whose from-square is empty is outside this model.
- `UciFrontEnd.GetBestMove` does not model the `time_limit` argument or the per-candidate scores it computes and then discards.
- NaN comparisons (`prob > 0.5` on NaN) are not modelled. A missing CSV cell is `None`.

## Findings

| source | as written | input that shows it | evidently intended | confidence | as-written member | corrected member |
|---|---|---|---|---|---|---|
| src/process_data.py:94-118 | If `engine.analyse` at line 95 raises, the handler at line 114 skips the `board.pop()` at line 100. Line 118 then pushes the played move a second time, onto the position where it has already been played, so the board no longer follows the game. What python-chess's `push` does with that move is not part of this model. | The multi-PV lines do not contain the played move, and the depth-5 analysis raises (e.g. the engine process died). | The board advances by exactly the played move on every path. | not executed; high | `LabelExtraction.ProcessMoveAsWritten`, `LabelExtraction.DoublePushWitness`, `LabelExtraction.WalkAsWritten` | `LabelExtraction.ProcessMove`, `LabelExtraction.Walk` |
| src/human_engine.py:104-134 | At end of input, `input()` raises EOFError. `except Exception` swallows it, so the loop reads again forever and never exits. | Standard input closes without a `quit` line. | The loop ends at end of input. | not executed; high | `UciFrontEnd.EofNeverEndsLoop`, `UciFrontEnd.RunsUntilQuit` | `UciFrontEnd.EofEndsLoop`, `UciFrontEnd.Session` |

=== FILE: base.dfy ===
/**
  Vocabulary shared by every part of the model: optional values, calls into
  code outside the model that may raise, UCI move tokens, the engine's
  multi-PV analysis lines, and Python's notion of a whitespace character.
 */
module Base {

  /** A value that may be absent (Python's None, or a missing CSV cell). */
  datatype Option<+T> = None | Some(value: T)

  /** The outcome of a call that may raise a Python exception; `message` is `str(e)`. */
  datatype Attempt<+T> = Returned(value: T) | Raised(message: string)

  /** A move written as a UCI token, e.g. "e2e4" or "e7e8q". */
  type Move = string

  /** One principal variation of a multi-PV analysis: its moves and its score
      in centipawns relative to the side to move (a mate already mapped by
      the engine wrapper to a score near plus or minus 10000). */
  datatype Line = Line(pv: seq<Move>, score: int)

  /** Python's `str.isspace` for a single character: the characters that
      `str.split()` splits on. */
  predicate IsSpace(c: char)
  {
    || c == ' ' || c == '\t' || c == '\n' || c == '\r'
    || c == '\U{000B}' || c == '\U{000C}'
    || ('\U{001C}' <= c <= '\U{001F}')
    || c == '\U{0085}' || c == '\U{00A0}' || c == '\U{1680}'
    || ('\U{2000}' <= c <= '\U{200A}')
    || c == '\U{2028}' || c == '\U{2029}' || c == '\U{202F}'
    || c == '\U{205F}' || c == '\U{3000}'
  }

  /** The present values of `s`, in order. */
  function Somes<T>(s: seq<Option<T>>): (r: seq<T>)
    ensures |r| <= |s|
    decreases |s|
  {
    if |s| == 0 then [] else (if s[0].Some? then [s[0].value] else []) + Somes(s[1..])
  }

  /** True when no character of `s` is whitespace. */
  predicate NoSpace(s: string)
  {
    forall i :: 0 <= i < |s| ==> !IsSpace(s[i])
  }
}

=== FILE: chess.dfy ===
/**
  The little of python-chess that the model needs to name: piece kinds and
  colours, the 64 squares with python-chess's numbering (square s lies on
  rank s / 8 and file s % 8, a1 = 0, h8 = 63), a piece placement, and a
  position reached from a root position by pushing moves. FEN parsing,
  move legality and rendering stay outside the model.
 */
module Chess {
  import opened Base

  datatype PieceKind = Pawn | Knight | Bishop | Rook | Queen | King

  datatype Color = White | Black

  datatype Piece = Piece(kind: PieceKind, color: Color)

  function Opponent(c: Color): (o: Color)
    ensures o != c
  {
    if c == White then Black else White
  }

  type Square = s: int | 0 <= s < 64

  /** `chess.square_rank`. */
  function Rank(s: Square): (r: int)
    ensures 0 <= r < 8
  {
    s / 8
  }

  /** `chess.square_file`. */
  function File(s: Square): (f: int)
    ensures 0 <= f < 8
  {
    s % 8
  }

  /** The square on a given rank and file; the inverse of (Rank, File). */
  function SquareAt(rank: int, file: int): (s: Square)
    requires 0 <= rank < 8 && 0 <= file < 8
    ensures Rank(s) == rank && File(s) == file
  {
    rank * 8 + file
  }

  /** Every square is recovered from its rank and file. */
  lemma SquareAtRankFile(s: Square)
    ensures SquareAt(Rank(s), File(s)) == s
  {
  }

  /** `board.piece_map()`: the pieces on the board, keyed by square. */
  type Placement = map<Square, Piece>

  /** A python-chess board as far as label extraction sees it: the game's
      root position (its FEN text and side to move) and the moves pushed
      onto it since, in order. */
  datatype Position = Position(rootFen: string, rootTurn: Color, played: seq<Move>)

  /** `board.turn`: every push hands the move to the other side. */
  function Turn(p: Position): (c: Color)
    ensures c == p.rootTurn <==> |p.played| % 2 == 0
  {
    if |p.played| % 2 == 0 then p.rootTurn else Opponent(p.rootTurn)
  }

  /** `board.push(move)`. */
  function Push(p: Position, m: Move): (q: Position)
    ensures q.rootFen == p.rootFen && q.rootTurn == p.rootTurn
    ensures q.played == p.played + [m]
    ensures Turn(q) == Opponent(Turn(p))
  {
    p.(played := p.played + [m])
  }

  /** `board.pop()`: undoes the last push. */
  function Pop(p: Position): (q: Position)
    requires |p.played| > 0
    ensures Push(q, p.played[|p.played| - 1]) == p
  {
    p.(played := p.played[..|p.played| - 1])
  }

  /** Pushes every move of `ms` in order. */
  function PlayAll(p: Position, ms: seq<Move>): (q: Position)
    ensures q.rootFen == p.rootFen && q.rootTurn == p.rootTurn
  {
    p.(played := p.played + ms)
  }

  /** Popping right after a push gives back the position before it. */
  lemma PopAfterPush(p: Position, m: Move)
    ensures Pop(Push(p, m)) == p
  {
    assert (p.played + [m])[..|p.played|] == p.played;
  }
}

=== FILE: dataset.dfy ===
/**
  Feeding the processed CSV to training. `HumanChessDataset` (src/dataset.py)
  drops the rows that lack a fen, an elo or an is_blunder value and serves
  the kept rows by position as (channel-first board tensor, elo / 3000,
  label). `main` in src/train_model.py reads the same CSV without dropping
  anything and pairs the channel-last board tensors, the scaled Elo values
  and the is_blunder labels row by row.
 */
module Dataset {
  import opened Base
  import opened Chess
  import opened Encoder

  /** One CSV row as pandas reads it; an empty or NaN cell is None. */
  datatype Row = Row(fen: Option<string>, elo: Option<int>, isBlunder: Option<int>)

  /** What `__getitem__` returns: board tensor, scaled Elo and label. */
  datatype Sample = Sample(board: Tensor3, elo: real, target: real)

  /** The message of the IndexError `iloc` raises. */
  const OutOfBounds := "single positional indexer is out-of-bounds"

  /** The Elo values are scaled by this before they reach the network. */
  const EloScale: real := 3000.0

  predicate Complete(row: Row)
  {
    row.fen.Some? && row.elo.Some? && row.isBlunder.Some?
  }

  /** `df.dropna(subset=['fen', 'elo', 'is_blunder'])`: the complete rows, in order. */
  function Kept(rows: seq<Row>): (kept: seq<Row>)
    ensures |kept| <= |rows|
    ensures forall i :: 0 <= i < |kept| ==> Complete(kept[i])
    ensures forall x :: x in kept <==> x in rows && Complete(x)
    ensures |rows| == 1 ==> kept == if Complete(rows[0]) then rows else []
    decreases |rows|
  {
    if |rows| == 0 then []
    else
      var front := rows[..|rows| - 1];
      var last := rows[|rows| - 1];
      assert rows == front + [last];
      Kept(front) + (if Complete(last) then [last] else [])
  }

  /** Dropping rows keeps the file order: the rows kept from two pieces of
      the file are those of the first piece followed by those of the second. */
  lemma {:induction false} KeptAppend(a: seq<Row>, b: seq<Row>)
    ensures Kept(a + b) == Kept(a) + Kept(b)
    decreases |b|
  {
    if |b| == 0 {
      assert a + b == a;
    } else {
      var front := b[..|b| - 1];
      var last := b[|b| - 1];
      assert (a + b)[..|a + b| - 1] == a + front;
      assert (a + b)[|a + b| - 1] == last;
      KeptAppend(a, front);
    }
  }

  /** The positions of the complete rows in the file. */
  ghost function CompleteIndices(rows: seq<Row>): set<int>
  {
    set i | 0 <= i < |rows| && Complete(rows[i])
  }

  /** The complete positions of a file are those of all but its last row,
      plus the last position when that row is complete. */
  lemma CompleteIndicesLast(rows: seq<Row>)
    requires |rows| > 0
    ensures |rows| - 1 !in CompleteIndices(rows[..|rows| - 1])
    ensures CompleteIndices(rows)
              == CompleteIndices(rows[..|rows| - 1]) + (if Complete(rows[|rows| - 1]) then {|rows| - 1} else {})
    ensures |CompleteIndices(rows)|
              == |CompleteIndices(rows[..|rows| - 1])| + (if Complete(rows[|rows| - 1]) then 1 else 0)
  {
    var front := rows[..|rows| - 1];
    assert forall i :: 0 <= i < |front| ==> rows[i] == front[i];
  }

  /** The rows kept from a file are those kept from all but its last row,
      then the last row when it is complete. */
  lemma KeptLast(rows: seq<Row>)
    requires |rows| > 0
    ensures |Kept(rows)| == |Kept(rows[..|rows| - 1])| + (if Complete(rows[|rows| - 1]) then 1 else 0)
  {
  }

  lemma {:induction false} KeptCount(rows: seq<Row>)
    ensures |Kept(rows)| == |CompleteIndices(rows)|
    decreases |rows|
  {
    if |rows| > 0 {
      var n := |rows| - 1;
      var front := rows[..n];
      KeptCount(front);
      CompleteIndicesLast(rows);
      KeptLast(rows);
    } else {
      assert CompleteIndices(rows) == {};
    }
  }

  /** `__len__`: the number of rows with fen, elo and is_blunder all present. */
  function Len(rows: seq<Row>): (n: nat)
    ensures n == |CompleteIndices(rows)|
    ensures n <= |rows|
  {
    KeptCount(rows);
    |Kept(rows)|
  }

  /** `__getitem__(idx)`: `iloc` on the kept rows (a negative index counts
      from the end), then the channel-first encoding of the row's FEN, its
      Elo over 3000 and its label. A FEN the board constructor rejects
      raises. */
  function GetItem(rows: seq<Row>, parse: string -> Attempt<Placement>, idx: int): (r: Attempt<Sample>)
    ensures idx + Len(rows) < 0 || Len(rows) <= idx ==> r == Raised(OutOfBounds)
    ensures 0 <= idx + Len(rows) && idx < Len(rows) ==>
              var row := Kept(rows)[if idx < 0 then idx + Len(rows) else idx];
              && Complete(row)
              && (parse(row.fen.value).Raised? ==> r == Raised(parse(row.fen.value).message))
              && (parse(row.fen.value).Returned? ==>
                    && r.Returned?
                    && EncodesFirst(r.value.board, parse(row.fen.value).value)
                    && r.value.elo * EloScale == row.elo.value as real
                    && r.value.target == row.isBlunder.value as real)
  {
    var kept := Kept(rows);
    var n := |kept|;
    if idx < -n || n <= idx then Raised(OutOfBounds)
    else
      var row := kept[if idx < 0 then idx + n else idx];
      match parse(row.fen.value)
      case Raised(e) => Raised(e)
      case Returned(pm) =>
        Returned(Sample(FenToTensorFirst(pm), row.elo.value as real / EloScale, row.isBlunder.value as real))
  }
}

/**
  The feature/label pairing in `main` of src/train_model.py.
 */
module TrainModel {
  import opened Base
  import opened Chess
  import opened Encoder
  import opened Dataset

  /** The training inputs: board tensors, scaled Elo values (None where the
      cell was NaN, which stays NaN) and labels, one entry per CSV row. */
  datatype Features = Features(boards: seq<Tensor3>, elos: seq<Option<real>>, labels: seq<Option<int>>)

  /** The message when a FEN cell is missing and the board constructor gets NaN. */
  const MissingFen := "'float' object has no attribute 'split'"

  /** Line 68: the channel-last encoding of every row's FEN, in row order;
      the first missing or rejected FEN raises. */
  function BoardInputs(rows: seq<Row>, parse: string -> Attempt<Placement>): (r: Attempt<seq<Tensor3>>)
    ensures r.Returned? ==> |r.value| == |rows|
    ensures r.Returned? ==> forall i :: 0 <= i < |rows| ==>
              rows[i].fen.Some? && parse(rows[i].fen.value).Returned?
              && EncodesLast(r.value[i], parse(rows[i].fen.value).value)
    ensures r.Raised? <==> exists i :: 0 <= i < |rows| && (rows[i].fen.None? || parse(rows[i].fen.value).Raised?)
    decreases |rows|
  {
    if |rows| == 0 then Returned([])
    else if rows[0].fen.None? then Raised(MissingFen)
    else
      match parse(rows[0].fen.value)
      case Raised(e) => Raised(e)
      case Returned(pm) =>
        var rest := BoardInputs(rows[1..], parse);
        if rest.Raised? then
          var j :| 0 <= j < |rows| - 1 && (rows[1..][j].fen.None? || parse(rows[1..][j].fen.value).Raised?);
          assert rows[j + 1] == rows[1..][j];
          Raised(rest.message)
        else
          assert forall i :: 1 <= i < |rows| ==> rows[i] == rows[1..][i - 1];
          Returned([FenToTensorLast(pm)] + rest.value)
  }

  /** Line 69: the Elo column over 3000. */
  function ScaledElo(elo: Option<int>): (s: Option<real>)
    ensures s.Some? <==> elo.Some?
    ensures s.Some? ==> s.value * EloScale == elo.value as real
  {
    if elo.Some? then Some(elo.value as real / EloScale) else None
  }

  /** Lines 68-70: boards, scaled Elo values and labels, aligned row by row. */
  function PrepareTrainingData(rows: seq<Row>, parse: string -> Attempt<Placement>): (r: Attempt<Features>)
    ensures r.Raised? <==> exists i :: 0 <= i < |rows| && (rows[i].fen.None? || parse(rows[i].fen.value).Raised?)
    ensures r.Returned? ==>
              && |r.value.boards| == |r.value.elos| == |r.value.labels| == |rows|
              && forall i :: 0 <= i < |rows| ==>
                   && rows[i].fen.Some? && parse(rows[i].fen.value).Returned?
                   && EncodesLast(r.value.boards[i], parse(rows[i].fen.value).value)
                   && r.value.elos[i] == ScaledElo(rows[i].elo)
                   && r.value.labels[i] == rows[i].isBlunder
  {
    match BoardInputs(rows, parse)
    case Raised(e) => Raised(e)
    case Returned(boards) =>
      Returned(Features(boards, seq(|rows|, i requires 0 <= i < |rows| => ScaledElo(rows[i].elo)),
                        seq(|rows|, i requires 0 <= i < |rows| => rows[i].isBlunder)))
  }
}

=== FILE: decimal.dfy ===
/**
  Decimal integers as text: Python's `int(s)` on a string, used to read the
  Elo headers of a game, and Python's `str(n)` on an integer, used when a
  count is printed. `int(s)` ignores surrounding whitespace, accepts one
  optional sign and decimal digits that may be grouped by single
  underscores, and raises ValueError on anything else; here the error is
  `None`.
 */
module Decimal {
  import opened Base

  predicate IsDigit(c: char)
  {
    '0' <= c <= '9'
  }

  predicate AllDigits(s: string)
  {
    forall i :: 0 <= i < |s| ==> IsDigit(s[i])
  }

  function DigitValue(c: char): (d: nat)
    requires IsDigit(c)
    ensures d < 10
  {
    (c as int) - ('0' as int)
  }

  function DigitChar(d: nat): (c: char)
    requires d < 10
    ensures IsDigit(c) && DigitValue(c) == d
  {
    (('0' as int) + d) as char
  }

  /** The number a run of decimal digits denotes, most significant first. */
  function DigitsValue(s: string): nat
    requires AllDigits(s)
    decreases |s|
  {
    if |s| == 0 then 0 else 10 * DigitsValue(s[..|s| - 1]) + DigitValue(s[|s| - 1])
  }

  /** `str(n)` for a non-negative integer: digits without leading zeros. */
  function NatToString(n: nat): (s: string)
    ensures |s| > 0 && AllDigits(s)
    ensures DigitsValue(s) == n
    ensures s[0] == '0' ==> |s| == 1
    decreases n
  {
    if n < 10 then [DigitChar(n)]
    else
      var front := NatToString(n / 10);
      assert (front + [DigitChar(n % 10)])[..|front|] == front;
      front + [DigitChar(n % 10)]
  }

  /** `str(i)` for any integer. */
  function IntToString(i: int): (s: string)
    ensures |s| > 0 && IsDigit(s[|s| - 1])
    ensures s[0] == '-' <==> i < 0
  {
    if i < 0 then "-" + NatToString(-i) else NatToString(i)
  }

  /** The whitespace `int()` skips around its text. Non-ASCII whitespace is
      first turned into a space, but ASCII characters are kept as they are and
      only space, tab, newline, carriage return, vertical tab and form feed
      are skipped; the separators U+001C to U+001F, which `str.isspace`
      accepts, are not. */
  predicate IsIntSpace(c: char)
  {
    IsSpace(c) && !('\U{001C}' <= c <= '\U{001F}')
  }

  /** Drops leading whitespace; the result is a suffix of `s`. */
  function StripLeft(s: string): (t: string)
    ensures |t| <= |s| && t == s[|s| - |t|..]
    ensures forall i :: 0 <= i < |s| - |t| ==> IsIntSpace(s[i])
    ensures |t| > 0 ==> !IsIntSpace(t[0])
    decreases |s|
  {
    if |s| > 0 && IsIntSpace(s[0]) then StripLeft(s[1..]) else s
  }

  /** Drops trailing whitespace; the result is a prefix of `s`. */
  function StripRight(s: string): (t: string)
    ensures |t| <= |s| && t == s[..|t|]
    ensures forall i :: |t| <= i < |s| ==> IsIntSpace(s[i])
    ensures |t| > 0 ==> !IsIntSpace(t[|t| - 1])
    decreases |s|
  {
    if |s| > 0 && IsIntSpace(s[|s| - 1]) then StripRight(s[..|s| - 1]) else s
  }

  /** The text `int()` reads: `s` without the whitespace it skips at both
      ends. */
  function Strip(s: string): string
  {
    StripRight(StripLeft(s))
  }

  /** Decimal digits, optionally separated by single underscores, that begin
      and end with a digit. */
  predicate DigitGroups(b: string)
  {
    && |b| > 0 && IsDigit(b[0]) && IsDigit(b[|b| - 1])
    && DigitsOrUnderscores(b)
    && (forall i :: 0 <= i < |b| - 1 ==> b[i] != '_' || b[i + 1] != '_')
  }

  predicate DigitsOrUnderscores(b: string)
  {
    forall i :: 0 <= i < |b| ==> IsDigit(b[i]) || b[i] == '_'
  }

  /** `b` with the underscores left out: only digits when `b` holds only
      digits and underscores. */
  function WithoutUnderscores(b: string): (d: string)
    ensures DigitsOrUnderscores(b) ==> AllDigits(d)
    ensures AllDigits(b) ==> d == b
    decreases |b|
  {
    if |b| == 0 then []
    else (if b[0] == '_' then [] else [b[0]]) + WithoutUnderscores(b[1..])
  }

  /** The value of an optionally signed body of digit groups. */
  function SignedValue(t: string): Option<int>
  {
    var negative := |t| > 0 && t[0] == '-';
    var body := if |t| > 0 && (t[0] == '-' || t[0] == '+') then t[1..] else t;
    if DigitGroups(body) then
      var magnitude: int := DigitsValue(WithoutUnderscores(body));
      Some(if negative then -magnitude else magnitude)
    else None
  }

  /** The text `int` accepts once whitespace is stripped, character by
      character: digits and underscores, except that the first character may
      be a sign followed by a digit; it ends in a digit, and no two
      underscores are adjacent. */
  ghost predicate IntText(t: string)
  {
    && |t| > 0
    && (IsDigit(t[0]) || ((t[0] == '+' || t[0] == '-') && |t| > 1 && IsDigit(t[1])))
    && (forall i :: 0 < i < |t| ==> IsDigit(t[i]) || t[i] == '_')
    && IsDigit(t[|t| - 1])
    && (forall i :: 0 <= i < |t| - 1 ==> t[i] != '_' || t[i + 1] != '_')
  }

  /** A sign or digit first, then digit groups: exactly the accepted text. */
  lemma SignedValueAccepts(t: string)
    ensures SignedValue(t).Some? <==> IntText(t)
  {
    if |t| > 0 && (t[0] == '-' || t[0] == '+') {
      var body := t[1..];
      assert forall i :: 0 < i < |t| ==> t[i] == body[i - 1];
      if IntText(t) {
        assert DigitGroups(body);
      }
    }
  }

  /** `int(s)` on a string: None where Python raises ValueError. */
  function ParseInt(s: string): (r: Option<int>)
    ensures r.Some? <==> IntText(Strip(s))
    ensures r.Some? && Strip(s)[0] == '-' ==> r.value <= 0
    ensures r.Some? && Strip(s)[0] != '-' ==> r.value >= 0
    ensures (forall i :: 0 <= i < |s| ==> !IsDigit(s[i])) ==> r.None?
  {
    var t := Strip(s);
    var r := SignedValue(t);
    assert r.Some? <==> IntText(t) by {
      SignedValueAccepts(t);
    }
    assert r.Some? ==> |t| > 0 && (t[0] == '-' ==> r.value <= 0) && (t[0] != '-' ==> r.value >= 0) by {
      SignedSign(t);
    }
    assert (forall i :: 0 <= i < |s| ==> !IsDigit(s[i])) ==> r.None? by {
      if forall i :: 0 <= i < |s| ==> !IsDigit(s[i]) {
        StripNoDigit(s);
        SignedEndsInDigit(t);
      }
    }
    r
  }

  /** A value is negative or zero exactly as the text's sign says. */
  lemma SignedSign(t: string)
    ensures SignedValue(t).Some? ==>
              && |t| > 0
              && (t[0] == '-' ==> SignedValue(t).value <= 0)
              && (t[0] != '-' ==> SignedValue(t).value >= 0)
  {
  }

  /** Text with a value ends in a digit. */
  lemma SignedEndsInDigit(t: string)
    ensures SignedValue(t).Some? ==> |t| > 0 && IsDigit(t[|t| - 1])
  {
    if SignedValue(t).Some? && |t| > 0 && (t[0] == '-' || t[0] == '+') {
      assert t[1..][|t| - 2] == t[|t| - 1];
    }
  }

  /** Text without a digit strips to text that does not end in one. */
  lemma StripNoDigit(s: string)
    requires forall i :: 0 <= i < |s| ==> !IsDigit(s[i])
    ensures |Strip(s)| == 0 || !IsDigit(Strip(s)[|Strip(s)| - 1])
  {
    var l := StripLeft(s);
    var t := StripRight(l);
    if |t| > 0 {
      assert t[|t| - 1] == l[|t| - 1] == s[|s| - |l| + |t| - 1];
    }
  }

  /** Leading whitespace is dropped whatever follows it. */
  lemma {:induction false} StripLeftSkipsSpace(w: string, y: string)
    requires forall i :: 0 <= i < |w| ==> IsIntSpace(w[i])
    ensures StripLeft(w + y) == StripLeft(y)
    decreases |w|
  {
    if |w| > 0 {
      assert (w + y)[1..] == w[1..] + y;
      StripLeftSkipsSpace(w[1..], y);
    } else {
      assert w + y == y;
    }
  }

  /** Trailing whitespace is dropped whatever precedes it. */
  lemma {:induction false} StripRightSkipsSpace(y: string, w: string)
    requires forall i :: 0 <= i < |w| ==> IsIntSpace(w[i])
    ensures StripRight(y + w) == StripRight(y)
    decreases |w|
  {
    if |w| > 0 {
      assert (y + w)[..|y + w| - 1] == y + w[..|w| - 1];
      StripRightSkipsSpace(y, w[..|w| - 1]);
    } else {
      assert y + w == y;
    }
  }

  /** Whitespace around a string without whitespace at its ends is stripped exactly. */
  lemma {:induction false} StripPadded(w1: string, x: string, w2: string)
    requires forall i :: 0 <= i < |w1| ==> IsIntSpace(w1[i])
    requires forall i :: 0 <= i < |w2| ==> IsIntSpace(w2[i])
    requires |x| > 0 && !IsIntSpace(x[0]) && !IsIntSpace(x[|x| - 1])
    ensures Strip(w1 + x + w2) == x
  {
    assert w1 + x + w2 == w1 + (x + w2);
    StripLeftSkipsSpace(w1, x + w2);
    assert StripLeft(x + w2) == x + w2;
    StripRightSkipsSpace(x, w2);
    assert StripRight(x) == x;
  }

  /** A `+` in front of the digits changes nothing. */
  lemma PlusChangesNothing(x: string)
    requires |x| > 0 && IsDigit(x[0])
    ensures SignedValue("+" + x) == SignedValue(x)
  {
    assert ("+" + x)[1..] == x;
  }

  /** Zeros in front of the digits do not change their value. */
  lemma {:induction false} LeadingZerosChangeNothing(z: string, d: string)
    requires forall k :: 0 <= k < |z| ==> z[k] == '0'
    requires AllDigits(d)
    ensures AllDigits(z + d) && DigitsValue(z + d) == DigitsValue(d)
    decreases |d|
  {
    if |d| == 0 {
      assert z + d == z;
      ZerosAreZero(z);
    } else {
      var front := d[..|d| - 1];
      assert (z + d)[..|z + d| - 1] == z + front;
      assert (z + d)[|z + d| - 1] == d[|d| - 1];
      LeadingZerosChangeNothing(z, front);
    }
  }

  lemma {:induction false} ZerosAreZero(z: string)
    requires forall k :: 0 <= k < |z| ==> z[k] == '0'
    ensures AllDigits(z) && DigitsValue(z) == 0
    decreases |z|
  {
    if |z| > 0 {
      ZerosAreZero(z[..|z| - 1]);
    }
  }

  /** Underscores are dropped piecewise. */
  lemma {:induction false} WithoutUnderscoresAppend(a: string, b: string)
    ensures WithoutUnderscores(a + b) == WithoutUnderscores(a) + WithoutUnderscores(b)
    decreases |a|
  {
    if |a| == 0 {
      assert a + b == b;
    } else {
      assert (a + b)[0] == a[0] && (a + b)[1..] == a[1..] + b;
      WithoutUnderscoresAppend(a[1..], b);
    }
  }

  /** Text without whitespace at its ends is parsed as it stands. */
  lemma ParseUnpadded(t: string)
    requires |t| > 0 && !IsIntSpace(t[0]) && !IsIntSpace(t[|t| - 1])
    ensures ParseInt(t) == SignedValue(t)
  {
    StripPadded([], t, []);
    assert [] + t + [] == t;
  }

  /** A run of digits, bare, is read as its value. */
  lemma ParseIntDigits(d: string)
    requires |d| > 0 && AllDigits(d)
    ensures ParseInt(d) == Some(DigitsValue(d))
  {
    assert !IsIntSpace(d[0]) && !IsIntSpace(d[|d| - 1]);
    ParseUnpadded(d);
    UnsignedValue(d);
  }

  lemma UnsignedValue(d: string)
    requires |d| > 0 && AllDigits(d)
    ensures SignedValue(d) == Some(DigitsValue(d))
  {
    assert IsDigit(d[0]);
    assert !(d[0] == '-' || d[0] == '+');
    PlainDigitsAreGroups(d);
    var m := DigitsValue(WithoutUnderscores(d));
    assert m == DigitsValue(d);
  }

  /** A `+` sign changes nothing: "+1500" is read as 1500. */
  lemma ParseIntPlus(t: string)
    requires |t| > 1 && t[0] == '+' && DigitGroups(t[1..])
    ensures ParseInt(t) == ParseInt(t[1..])
  {
    assert IsDigit(t[1..][0]) && IsDigit(t[1..][|t| - 2]);
    SignedPlus(t);
    ParseUnpadded(t);
    ParseUnpadded(t[1..]);
  }

  /** The character facts behind `ParseIntPlus`, apart from `ParseInt`. */
  lemma SignedPlus(t: string)
    requires |t| > 1 && t[0] == '+' && IsDigit(t[1]) && IsDigit(t[|t| - 1])
    ensures !IsIntSpace(t[0]) && !IsIntSpace(t[|t| - 1])
    ensures !IsIntSpace(t[1]) && SignedValue(t) == SignedValue(t[1..])
  {
    var d := t[1..];
    assert d[0] == t[1] && !(d[0] == '-' || d[0] == '+');
  }

  /** A `-` sign negates: "-1_500" is read as -1500. */
  lemma ParseIntMinus(t: string)
    requires |t| > 1 && t[0] == '-' && DigitGroups(t[1..])
    ensures ParseInt(t).Some? && ParseInt(t[1..]).Some?
    ensures ParseInt(t).value == -ParseInt(t[1..]).value
  {
    assert IsDigit(t[1..][0]) && IsDigit(t[1..][|t| - 2]);
    SignedMinus(t);
    ParseUnpadded(t);
    ParseUnpadded(t[1..]);
  }

  /** The character facts behind `ParseIntMinus`, apart from `ParseInt`. */
  lemma SignedMinus(t: string)
    requires |t| > 1 && t[0] == '-' && DigitGroups(t[1..])
    ensures !IsIntSpace(t[0]) && !IsIntSpace(t[|t| - 1]) && !IsIntSpace(t[1])
    ensures SignedValue(t).Some? && SignedValue(t[1..]).Some?
    ensures SignedValue(t).value == -SignedValue(t[1..]).value
  {
    var d := t[1..];
    assert d[0] == t[1] && !(d[0] == '-' || d[0] == '+');
    assert t[|t| - 1] == d[|d| - 1];
  }

  /** Whitespace around the text changes nothing: " 1500\n" is read as
      1500. */
  lemma ParseIntPadded(w1: string, x: string, w2: string)
    requires forall k :: 0 <= k < |w1| ==> IsIntSpace(w1[k])
    requires forall k :: 0 <= k < |w2| ==> IsIntSpace(w2[k])
    requires |x| > 0 && !IsIntSpace(x[0]) && !IsIntSpace(x[|x| - 1])
    ensures ParseInt(w1 + x + w2) == ParseInt(x)
  {
    StripPadded(w1, x, w2);
    ParseUnpadded(x);
  }

  /** Leading zeros change nothing: "01500" is read as 1500. */
  lemma ParseIntLeadingZeros(z: string, d: string)
    requires forall k :: 0 <= k < |z| ==> z[k] == '0'
    requires |d| > 0 && AllDigits(d)
    ensures ParseInt(z + d) == ParseInt(d)
  {
    LeadingZerosChangeNothing(z, d);
    ParseIntDigits(d);
    ParseIntDigits(z + d);
  }

  /** A single underscore between two digit groups changes nothing:
      "1_000_000" is read as "1_000000" and then as 1000000. */
  lemma ParseIntUnderscore(a: string, b: string)
    requires DigitGroups(a) && DigitGroups(b)
    ensures ParseInt(a + "_" + b) == ParseInt(a + b)
  {
    SignedUnderscore(a, b);
    ParseUnpadded(a + "_" + b);
    ParseUnpadded(a + b);
  }

  /** The character facts behind `ParseIntUnderscore`, apart from
      `ParseInt`. */
  lemma SignedUnderscore(a: string, b: string)
    requires DigitGroups(a) && DigitGroups(b)
    ensures var t := a + "_" + b; !IsIntSpace(t[0]) && !IsIntSpace(t[|t| - 1])
    ensures var t := a + b; !IsIntSpace(t[0]) && !IsIntSpace(t[|t| - 1])
    ensures SignedValue(a + "_" + b) == SignedValue(a + b)
  {
    GroupsJoin(a, b);
    GroupsValue(a + "_" + b);
    GroupsValue(a + b);
    UnderscoreDropped(a, b);
  }

  /** Unsigned digit groups are read as their digits with the underscores
      left out. */
  lemma GroupsValue(t: string)
    requires DigitGroups(t)
    ensures !IsIntSpace(t[0]) && !IsIntSpace(t[|t| - 1])
    ensures SignedValue(t) == Some(DigitsValue(WithoutUnderscores(t)))
  {
    assert !(t[0] == '-' || t[0] == '+');
  }

  /** Two digit groups joined directly or by one underscore are digit
      groups. */
  lemma GroupsJoin(a: string, b: string)
    requires DigitGroups(a) && DigitGroups(b)
    ensures DigitGroups(a + "_" + b) && DigitGroups(a + b)
  {
    var t := a + "_" + b;
    var u := a + b;
    assert forall i :: 0 <= i < |a| ==> t[i] == a[i] && u[i] == a[i];
    assert t[|a|] == '_' && u[|a|] == b[0];
    assert forall i :: |a| < i < |t| ==> t[i] == b[i - |a| - 1];
    assert forall i :: |a| <= i < |u| ==> u[i] == b[i - |a|];
  }

  /** Underscores are dropped whether or not one stands between `a` and
      `b`. */
  lemma UnderscoreDropped(a: string, b: string)
    ensures WithoutUnderscores(a + "_" + b) == WithoutUnderscores(a + b)
  {
    var u := "_" + b;
    assert a + "_" + b == a + u;
    assert WithoutUnderscores(u) == WithoutUnderscores(b) by {
      assert u[0] == '_' && u[1..] == b;
    }
    WithoutUnderscoresAppend(a, u);
    WithoutUnderscoresAppend(a, b);
  }

  /** An information separator U+001C to U+001F in front of the text is not
      skipped, although `str.isspace` accepts it, so the text is rejected:
      "\x1c1500" is not read as 1500. */
  lemma ParseIntKeepsSeparators(c: char, s: string)
    requires '\U{001C}' <= c <= '\U{001F}'
    ensures ParseInt([c] + s).None?
  {
    StripKeepsFirst(c, s);
    SignedRejectsFirst(Strip([c] + s));
  }

  /** Text that starts with neither a digit nor a sign has no value. */
  lemma SignedRejectsFirst(t: string)
    requires |t| > 0 && !IsDigit(t[0]) && t[0] != '-' && t[0] != '+'
    ensures SignedValue(t).None?
  {
  }

  /** A first character `int()` does not skip stays first in the text it
      reads. */
  lemma StripKeepsFirst(c: char, s: string)
    requires !IsIntSpace(c)
    ensures |Strip([c] + s)| > 0 && Strip([c] + s)[0] == c
  {
    var x := [c] + s;
    assert x[0] == c;
    assert StripLeft(x) == x;
    var t := StripRight(x);
    assert |t| > 0 && t[0] == c;
  }

  /** Any other character after the first, such as a letter, a decimal
      point or a thousands comma ("15OO", "1500.0", "1,500"), is rejected. */
  lemma ParseIntRejects(t: string, i: int)
    requires |t| > 0 && !IsIntSpace(t[0]) && !IsIntSpace(t[|t| - 1])
    requires 0 < i < |t| && !IsDigit(t[i]) && t[i] != '_'
    ensures ParseInt(t).None?
  {
    ParseUnpadded(t);
    SignedValueAccepts(t);
  }

  /** A plain run of digits is a valid body and keeps its digits. */
  lemma PlainDigitsAreGroups(d: string)
    requires |d| > 0 && AllDigits(d)
    ensures DigitGroups(d) && WithoutUnderscores(d) == d
  {
  }

  /** The sign and digits `str(i)` writes are read back as `i`. */
  lemma {:induction false} SignedValueOfString(i: int)
    ensures SignedValue(IntToString(i)) == Some(i)
  {
    var x := IntToString(i);
    var d := NatToString(if i < 0 then -i else i);
    if i < 0 {
      assert x[1..] == d;
    }
    PlainDigitsAreGroups(d);
  }

  /** Round trip: `int(str(i)) == i`, also with whitespace around the digits. */
  lemma {:induction false} ParseIntRoundTrip(i: int, w1: string, w2: string)
    requires forall k :: 0 <= k < |w1| ==> IsIntSpace(w1[k])
    requires forall k :: 0 <= k < |w2| ==> IsIntSpace(w2[k])
    ensures ParseInt(w1 + IntToString(i) + w2) == Some(i)
  {
    var x := IntToString(i);
    assert !IsIntSpace(x[0]) && !IsIntSpace(x[|x| - 1]);
    StripPadded(w1, x, w2);
    SignedValueOfString(i);
  }
}

=== FILE: encoder.dfy ===
/**
  `fen_to_tensor`: the one-hot board encoder copied into six files of the
  repository. Given the piece placement of a parsed FEN it builds a 0/1
  tensor with one layer per (piece kind, colour): layers 0..5 hold the
  White pawn, knight, bishop, rook, queen and king, layers 6..11 the Black
  ones. Two layouts exist:
  - channel-first, cell [layer][rank][file] (src/dataset.py, app.py);
  - channel-last, cell [rank][file][layer] (src/train_model.py, src/api.py,
    src/predict_position.py, src/human_engine.py).
  Each copy starts from zeros and, for every occupied square, writes 1 into
  the one cell that names that square and its piece's layer. The model
  visits the occupied squares from 63 down to 0, the order in which
  python-chess yields them; the contracts show the result does not depend
  on it.
 */
module Encoder {
  import opened Base
  import opened Chess

  /** A rank-3 tensor as nested sequences; every cell is 0 or 1. */
  type Tensor3 = seq<seq<seq<int>>>

  /** The `piece_map` dictionary of the encoder: P, N, B, R, Q, K. */
  function KindIndex(k: PieceKind): (i: int)
    ensures 0 <= i < 6
  {
    match k
    case Pawn => 0
    case Knight => 1
    case Bishop => 2
    case Rook => 3
    case Queen => 4
    case King => 5
  }

  /** The layer a piece is written to: its kind's index, plus 6 for Black. */
  function LayerOf(p: Piece): (l: int)
    ensures 0 <= l < 12
    ensures l < 6 <==> p.color == White
    ensures l % 6 == KindIndex(p.kind)
  {
    KindIndex(p.kind) + (if p.color == Black then 6 else 0)
  }

  /** The piece a layer stands for. */
  function PieceOfLayer(l: int): (p: Piece)
    requires 0 <= l < 12
    ensures LayerOf(p) == l
  {
    var kinds := [Pawn, Knight, Bishop, Rook, Queen, King];
    Piece(kinds[l % 6], if l < 6 then White else Black)
  }

  /** Distinct pieces get distinct layers, so a layer names exactly one piece. */
  lemma {:induction false} LayerRoundTrip(p: Piece)
    ensures PieceOfLayer(LayerOf(p)) == p
  {
    var q := PieceOfLayer(LayerOf(p));
    assert LayerOf(q) == LayerOf(p);
    assert q.color == p.color;
    assert KindIndex(q.kind) == KindIndex(p.kind);
  }

  /** The reference meaning of a cell: the square on (rank, file) holds a
      piece whose layer is `layer`. */
  ghost predicate Occupies(pm: Placement, layer: int, rank: int, file: int)
    requires 0 <= rank < 8 && 0 <= file < 8
  {
    SquareAt(rank, file) in pm && LayerOf(pm[SquareAt(rank, file)]) == layer
  }

  ghost predicate Shaped(t: Tensor3, a: nat, b: nat, c: nat)
  {
    && |t| == a
    && (forall i :: 0 <= i < a ==> |t[i]| == b)
    && (forall i, j :: 0 <= i < a && 0 <= j < b ==> |t[i][j]| == c)
  }

  /** `t` is the channel-first encoding of `pm`: shape 12 x 8 x 8 and cell
      [layer][rank][file] is 1 exactly when that square holds that layer's piece. */
  ghost predicate EncodesFirst(t: Tensor3, pm: Placement)
  {
    && Shaped(t, 12, 8, 8)
    && forall l, r, f :: 0 <= l < 12 && 0 <= r < 8 && 0 <= f < 8 ==>
         t[l][r][f] == (if Occupies(pm, l, r, f) then 1 else 0)
  }

  /** `t` is the channel-last encoding of `pm`: shape 8 x 8 x 12 and cell
      [rank][file][layer] is 1 exactly when that square holds that layer's piece. */
  ghost predicate EncodesLast(t: Tensor3, pm: Placement)
  {
    && Shaped(t, 8, 8, 12)
    && forall r, f, l :: 0 <= r < 8 && 0 <= f < 8 && 0 <= l < 12 ==>
         t[r][f][l] == (if Occupies(pm, l, r, f) then 1 else 0)
  }

  /** `np.zeros((a, b, c))`. */
  function Zeros(a: nat, b: nat, c: nat): (t: Tensor3)
    ensures Shaped(t, a, b, c)
    ensures forall i, j, k :: 0 <= i < a && 0 <= j < b && 0 <= k < c ==> t[i][j][k] == 0
  {
    seq(a, _ => seq(b, _ => seq(c, _ => 0)))
  }

  /** `tensor[i, j, k] = 1.0`: sets one cell and leaves every other cell as it was. */
  function SetOne(t: Tensor3, i: int, j: int, k: int): (u: Tensor3)
    requires 0 <= i < |t| && 0 <= j < |t[i]| && 0 <= k < |t[i][j]|
    ensures |u| == |t|
    ensures forall a :: 0 <= a < |t| ==> |u[a]| == |t[a]|
    ensures forall a, b :: 0 <= a < |t| && 0 <= b < |t[a]| ==> |u[a][b]| == |t[a][b]|
    ensures forall a, b, c :: 0 <= a < |t| && 0 <= b < |t[a]| && 0 <= c < |t[a][b]| ==>
              u[a][b][c] == (if a == i && b == j && c == k then 1 else t[a][b][c])
  {
    t[i := t[i][j := t[i][j][k := 1]]]
  }

  /** `t` has the channel-first shape and holds exactly the pieces on squares `from`..63. */
  ghost predicate FilledFirst(t: Tensor3, pm: Placement, from: int)
  {
    && Shaped(t, 12, 8, 8)
    && forall l, r, f :: 0 <= l < 12 && 0 <= r < 8 && 0 <= f < 8 ==>
         t[l][r][f] == (if from <= SquareAt(r, f) && Occupies(pm, l, r, f) then 1 else 0)
  }

  /** `t` has the channel-last shape and holds exactly the pieces on squares `from`..63. */
  ghost predicate FilledLast(t: Tensor3, pm: Placement, from: int)
  {
    && Shaped(t, 8, 8, 12)
    && forall r, f, l :: 0 <= r < 8 && 0 <= f < 8 && 0 <= l < 12 ==>
         t[r][f][l] == (if from <= SquareAt(r, f) && Occupies(pm, l, r, f) then 1 else 0)
  }

  /** The channel-first loop after it has visited squares 63 down to `from`. */
  function FillFirst(pm: Placement, from: nat): (t: Tensor3)
    requires from <= 64
    ensures FilledFirst(t, pm, from)
    decreases 64 - from
  {
    if from == 64 then Zeros(12, 8, 8)
    else
      var prev := FillFirst(pm, from + 1);
      FillFirstStep(pm, from, prev);
      if from in pm then SetOne(prev, LayerOf(pm[from]), Rank(from), File(from)) else prev
  }

  /** One iteration of the channel-first loop. */
  lemma FillFirstStep(pm: Placement, from: Square, prev: Tensor3)
    requires FilledFirst(prev, pm, from + 1)
    ensures from in pm ==> FilledFirst(SetOne(prev, LayerOf(pm[from]), Rank(from), File(from)), pm, from)
    ensures from !in pm ==> FilledFirst(prev, pm, from)
  {
    SquareAtRankFile(from);
    if from in pm {
      var u := SetOne(prev, LayerOf(pm[from]), Rank(from), File(from));
      forall l, r, f | 0 <= l < 12 && 0 <= r < 8 && 0 <= f < 8
        ensures u[l][r][f] == (if from <= SquareAt(r, f) && Occupies(pm, l, r, f) then 1 else 0)
      {
        if SquareAt(r, f) == from {
          assert r == Rank(from) && f == File(from);
        }
      }
    }
  }

  /** The channel-last loop after it has visited squares 63 down to `from`. */
  function FillLast(pm: Placement, from: nat): (t: Tensor3)
    requires from <= 64
    ensures FilledLast(t, pm, from)
    decreases 64 - from
  {
    if from == 64 then Zeros(8, 8, 12)
    else
      var prev := FillLast(pm, from + 1);
      FillLastStep(pm, from, prev);
      if from in pm then SetOne(prev, Rank(from), File(from), LayerOf(pm[from])) else prev
  }

  /** One iteration of the channel-last loop. */
  lemma FillLastStep(pm: Placement, from: Square, prev: Tensor3)
    requires FilledLast(prev, pm, from + 1)
    ensures from in pm ==> FilledLast(SetOne(prev, Rank(from), File(from), LayerOf(pm[from])), pm, from)
    ensures from !in pm ==> FilledLast(prev, pm, from)
  {
    SquareAtRankFile(from);
    if from in pm {
      var u := SetOne(prev, Rank(from), File(from), LayerOf(pm[from]));
      forall r, f, l | 0 <= r < 8 && 0 <= f < 8 && 0 <= l < 12
        ensures u[r][f][l] == (if from <= SquareAt(r, f) && Occupies(pm, l, r, f) then 1 else 0)
      {
        if SquareAt(r, f) == from {
          assert r == Rank(from) && f == File(from);
        }
      }
    }
  }

  /** Channel-first `fen_to_tensor` on the placement of the parsed FEN. */
  function FenToTensorFirst(pm: Placement): (t: Tensor3)
    ensures EncodesFirst(t, pm)
    // every (rank, file) has at most one layer set, and an empty square none
    ensures forall r, f, l, l' :: 0 <= r < 8 && 0 <= f < 8 && 0 <= l < 12 && 0 <= l' < 12
              && t[l][r][f] == 1 && t[l'][r][f] == 1
              ==> l == l'
    ensures forall r, f, l :: 0 <= r < 8 && 0 <= f < 8 && 0 <= l < 12 && SquareAt(r, f) !in pm
              ==> t[l][r][f] == 0
  {
    FillFirst(pm, 0)
  }

  /** Channel-last `fen_to_tensor` on the placement of the parsed FEN. */
  function FenToTensorLast(pm: Placement): (t: Tensor3)
    ensures EncodesLast(t, pm)
    ensures forall r, f, l, l' :: 0 <= r < 8 && 0 <= f < 8 && 0 <= l < 12 && 0 <= l' < 12
              && t[r][f][l] == 1 && t[r][f][l'] == 1
              ==> l == l'
    ensures forall r, f, l :: 0 <= r < 8 && 0 <= f < 8 && 0 <= l < 12 && SquareAt(r, f) !in pm
              ==> t[r][f][l] == 0
  {
    FillLast(pm, 0)
  }

  /** Moves the layer axis from first to last: [l][r][f] becomes [r][f][l]. */
  function ToChannelLast(t: Tensor3): (u: Tensor3)
    requires Shaped(t, 12, 8, 8)
    ensures Shaped(u, 8, 8, 12)
    ensures forall r, f, l :: 0 <= r < 8 && 0 <= f < 8 && 0 <= l < 12 ==> u[r][f][l] == t[l][r][f]
  {
    seq(8, r requires 0 <= r < 8 =>
      seq(8, f requires 0 <= f < 8 =>
        seq(12, l requires 0 <= l < 12 => t[l][r][f])))
  }

  /** The two layouts hold the same cells: the channel-last encoder's
      [r][f][l] is the channel-first encoder's [l][r][f]. */
  lemma {:induction false} LastIsTransposeOfFirst(pm: Placement)
    ensures FenToTensorLast(pm) == ToChannelLast(FenToTensorFirst(pm))
  {
    var a := FenToTensorLast(pm);
    var b := ToChannelLast(FenToTensorFirst(pm));
    forall r | 0 <= r < 8
      ensures a[r] == b[r]
    {
      forall f | 0 <= f < 8
        ensures a[r][f] == b[r][f]
      {
        assert |a[r][f]| == |b[r][f]| == 12;
      }
    }
  }

  /** The first index at or after `from` that holds a 1. */
  function FirstOne(col: seq<int>, from: nat): (r: Option<nat>)
    requires from <= |col|
    ensures r.Some? ==> from <= r.value < |col| && col[r.value] == 1
    ensures r.Some? ==> forall j :: from <= j < r.value ==> col[j] != 1
    ensures r.None? ==> forall j :: from <= j < |col| ==> col[j] != 1
    decreases |col| - from
  {
    if from == |col| then None
    else if col[from] == 1 then Some(from)
    else FirstOne(col, from + 1)
  }

  /** The piece a 12-layer column stands for, if any layer is set. */
  function PieceOfColumn(col: seq<int>): Option<Piece>
    requires |col| == 12
  {
    match FirstOne(col, 0)
    case None => None
    case Some(l) => Some(PieceOfLayer(l))
  }

  /** `cols[s]` is the 12-layer column of square s. */
  ghost predicate HasColumns(cols: seq<seq<int>>)
  {
    |cols| == 64 && forall s :: 0 <= s < 64 ==> |cols[s]| == 12
  }

  /** Layer `l` of the one-hot column of square `s`. */
  ghost function OneHot(pm: Placement, s: Square, l: int): int
  {
    if s in pm && LayerOf(pm[s]) == l then 1 else 0
  }

  /** `cols[s]` is the one-hot image of what `pm` holds on square s. */
  ghost predicate ColumnsOf(cols: seq<seq<int>>, pm: Placement)
  {
    && HasColumns(cols)
    && forall s, l :: 0 <= s < 64 && 0 <= l < 12 ==> cols[s][l] == OneHot(pm, s, l)
  }

  /** The part of a placement on squares `from`..63. */
  ghost function From(pm: Placement, from: int): Placement
  {
    map s | s in pm && from <= s :: pm[s]
  }

  /** Reading the columns of squares `from`..63 back into a placement,
      the decoding loop mirroring the encoder's. */
  function Decode(cols: seq<seq<int>>, from: nat): (pm: Placement)
    requires HasColumns(cols) && from <= 64
    ensures forall s :: s in pm ==> from <= s
    decreases 64 - from
  {
    if from == 64 then map[]
    else
      var rest := Decode(cols, from + 1);
      match PieceOfColumn(cols[from])
      case None => rest
      case Some(p) => rest[from := p]
  }

  /** The 64 columns of a channel-first tensor, square by square: column s
      gathers the layers of (rank, file) of s. */
  function ColumnsFirst(t: Tensor3): (cols: seq<seq<int>>)
    requires Shaped(t, 12, 8, 8)
    ensures HasColumns(cols)
    ensures forall s, l :: 0 <= s < 64 && 0 <= l < 12 ==> cols[s][l] == t[l][Rank(s)][File(s)]
  {
    seq(64, s requires 0 <= s < 64 => seq(12, l requires 0 <= l < 12 => t[l][Rank(s)][File(s)]))
  }

  /** The 64 columns of a channel-last tensor, square by square. */
  function ColumnsLast(t: Tensor3): (cols: seq<seq<int>>)
    requires Shaped(t, 8, 8, 12)
    ensures HasColumns(cols)
  {
    seq(64, s requires 0 <= s < 64 => t[Rank(s)][File(s)])
  }

  /** Reads a placement back from a channel-first tensor. */
  function DecodeFirst(t: Tensor3): Placement
    requires Shaped(t, 12, 8, 8)
  {
    Decode(ColumnsFirst(t), 0)
  }

  /** Reads a placement back from a channel-last tensor. */
  function DecodeLast(t: Tensor3): Placement
    requires Shaped(t, 8, 8, 12)
  {
    Decode(ColumnsLast(t), 0)
  }

  /** A column that is the one-hot image of a square's content decodes to it. */
  lemma {:induction false} ColumnDecodes(pm: Placement, s: Square, col: seq<int>)
    requires |col| == 12
    requires forall l :: 0 <= l < 12 ==> col[l] == OneHot(pm, s, l)
    ensures s in pm ==> PieceOfColumn(col) == Some(pm[s])
    ensures s !in pm ==> PieceOfColumn(col).None?
  {
    if s in pm {
      var l := LayerOf(pm[s]);
      assert col[l] == 1;
      LayerRoundTrip(pm[s]);
    } else {
      assert forall l :: 0 <= l < 12 ==> col[l] == 0;
    }
  }

  /** The decoding loop recovers the placement square by square. */
  lemma {:induction false} DecodeRecovers(cols: seq<seq<int>>, pm: Placement, from: nat)
    requires ColumnsOf(cols, pm) && from <= 64
    ensures Decode(cols, from) == From(pm, from)
    decreases 64 - from
  {
    if from < 64 {
      DecodeRecovers(cols, pm, from + 1);
      var s: Square := from;
      ColumnDecodes(pm, s, cols[s]);
      if s in pm {
        assert From(pm, from) == From(pm, from + 1)[s := pm[s]];
      } else {
        assert From(pm, from) == From(pm, from + 1);
      }
    } else {
      assert From(pm, from) == map[];
    }
  }

  /** Any tensor that is a channel-first encoding of `pm` decodes to `pm`. */
  lemma {:induction false} EncodingDecodesFirst(t: Tensor3, pm: Placement)
    requires EncodesFirst(t, pm)
    ensures DecodeFirst(t) == pm
  {
    var cols := ColumnsFirst(t);
    forall s: Square, l | 0 <= l < 12
      ensures cols[s][l] == OneHot(pm, s, l)
    {
      SquareAtRankFile(s);
    }
    DecodeRecovers(cols, pm, 0);
    assert From(pm, 0) == pm;
  }

  /** Any tensor that is a channel-last encoding of `pm` decodes to `pm`. */
  lemma {:induction false} EncodingDecodesLast(t: Tensor3, pm: Placement)
    requires EncodesLast(t, pm)
    ensures DecodeLast(t) == pm
  {
    var cols := ColumnsLast(t);
    forall s: Square, l | 0 <= l < 12
      ensures cols[s][l] == OneHot(pm, s, l)
    {
      SquareAtRankFile(s);
    }
    DecodeRecovers(cols, pm, 0);
    assert From(pm, 0) == pm;
  }

  /** Round trip: the channel-first tensor loses nothing about the placement. */
  lemma DecodeFirstInverts(pm: Placement)
    ensures DecodeFirst(FenToTensorFirst(pm)) == pm
  {
    EncodingDecodesFirst(FenToTensorFirst(pm), pm);
  }

  /** Round trip: the channel-last tensor loses nothing about the placement. */
  lemma DecodeLastInverts(pm: Placement)
    ensures DecodeLast(FenToTensorLast(pm)) == pm
  {
    EncodingDecodesLast(FenToTensorLast(pm), pm);
  }

  /** The set cells of a channel-first tensor, as (layer, rank, file). */
  ghost function OnesFirst(t: Tensor3): set<(int, int, int)>
    requires Shaped(t, 12, 8, 8)
  {
    set l, r, f | 0 <= l < 12 && 0 <= r < 8 && 0 <= f < 8 && t[l][r][f] == 1 :: (l, r, f)
  }

  /** The set cells of a channel-last tensor, as (rank, file, layer). */
  ghost function OnesLast(t: Tensor3): set<(int, int, int)>
    requires Shaped(t, 8, 8, 12)
  {
    set r, f, l | 0 <= r < 8 && 0 <= f < 8 && 0 <= l < 12 && t[r][f][l] == 1 :: (r, f, l)
  }

  /** A map from squares that is one-to-one on S has an image as large as S. */
  lemma {:induction false} InjectiveImageSize(S: set<Square>, g: Square -> (int, int, int))
    requires forall x, y :: x in S && y in S && g(x) == g(y) ==> x == y
    ensures |set s | s in S :: g(s)| == |S|
  {
    if S != {} {
      var x :| x in S;
      var rest := S - {x};
      InjectiveImageSize(rest, g);
      var img := set s | s in S :: g(s);
      var img' := set s | s in rest :: g(s);
      assert img == img' + {g(x)};
      assert g(x) !in img';
    }
  }

  /** The channel-first tensor has exactly as many 1-cells as the board has pieces. */
  lemma {:induction false} OnesCountFirst(pm: Placement)
    ensures |OnesFirst(FenToTensorFirst(pm))| == |pm|
  {
    var t := FenToTensorFirst(pm);
    var g := (s: Square) => (if s in pm then LayerOf(pm[s]) else 0, Rank(s), File(s));
    var img := set s | s in pm.Keys :: g(s);
    forall c | c in OnesFirst(t)
      ensures c in img
    {
      var (l, r, f) := c;
      assert g(SquareAt(r, f)) == c;
    }
    forall s | s in pm.Keys
      ensures g(s) in OnesFirst(t)
    {
      SquareAtRankFile(s);
      assert t[LayerOf(pm[s])][Rank(s)][File(s)] == 1;
    }
    assert OnesFirst(t) == img;
    forall x, y | x in pm.Keys && y in pm.Keys && g(x) == g(y)
      ensures x == y
    {
      SquareAtRankFile(x);
      SquareAtRankFile(y);
    }
    InjectiveImageSize(pm.Keys, g);
  }

  /** The channel-last tensor has exactly as many 1-cells as the board has pieces. */
  lemma {:induction false} OnesCountLast(pm: Placement)
    ensures |OnesLast(FenToTensorLast(pm))| == |pm|
  {
    var t := FenToTensorLast(pm);
    var g := (s: Square) => (Rank(s), File(s), if s in pm then LayerOf(pm[s]) else 0);
    var img := set s | s in pm.Keys :: g(s);
    forall c | c in OnesLast(t)
      ensures c in img
    {
      var (r, f, l) := c;
      assert g(SquareAt(r, f)) == c;
    }
    forall s | s in pm.Keys
      ensures g(s) in OnesLast(t)
    {
      SquareAtRankFile(s);
      assert t[Rank(s)][File(s)][LayerOf(pm[s])] == 1;
    }
    assert OnesLast(t) == img;
    forall x, y | x in pm.Keys && y in pm.Keys && g(x) == g(y)
      ensures x == y
    {
      SquareAtRankFile(x);
      SquareAtRankFile(y);
    }
    InjectiveImageSize(pm.Keys, g);
  }
}

=== FILE: labels.dfy ===
/**
  Training-label extraction: `process_single_game` in src/process_data.py.
  For every move of a game's main line it asks the engine for a five-line
  analysis of the position before the move, scores the move the human
  played, and records the gap between the best score and the human move's
  score together with the mover's Elo. The engine is an oracle: one call
  for the depth-10 multi-PV analysis, one for the depth-5 evaluation of the
  position after the move; either may raise.
 */
module LabelExtraction {
  import opened Base
  import opened Chess
  import opened Decimal

  /** Score gaps above this many centipawns count as blunders. */
  const BlunderThreshold := 100

  /** The human score used when the fallback evaluation cannot be read. */
  const UnreadableScore := -9999

  /** The worker's engine handle. `multiPv` is the depth-10 analysis with
      five lines; `single` is the depth-5 analysis, already reduced to its
      relative score, with `Returned(None)` where reading the score raises. */
  datatype Analyser = Analyser(
    multiPv: Position -> Attempt<seq<Line>>,
    single: Position -> Attempt<Option<int>>)

  /** A game as `chess.pgn` hands it over: its headers, its root position
      and its main-line moves. */
  datatype Game = Game(headers: map<string, string>, root: Position, moves: seq<Move>)

  /** One CSV row. `fen` is the position, kept unrendered. */
  datatype Record = Record(
    fen: Position, elo: int, bestScore: int, humanScore: int,
    scoreDiff: int, isBlunder: int, complexity: int)

  /** The engine's verdict on a position: its best move, that move's score
      and all the analysed lines. */
  datatype Best = Best(move: Move, score: int, lines: seq<Line>)

  /** The outcome of one iteration: an optional record and the board after it. */
  datatype Step = Step(record: Option<Record>, board: Position)

  /** What the walk over all moves yields. */
  datatype Extraction = Extraction(records: seq<Record>, board: Position)

  /** `headers.get(key, "?")`. */
  function HeaderOr(headers: map<string, string>, key: string): (v: string)
    ensures key in headers ==> v == headers[key]
    ensures key !in headers ==> v == "?"
  {
    if key in headers then headers[key] else "?"
  }

  /** The Elo of the side to move. */
  function MoverElo(p: Position, whiteElo: int, blackElo: int): (elo: int)
    ensures Turn(p) == White ==> elo == whiteElo
    ensures Turn(p) == Black ==> elo == blackElo
  {
    if Turn(p) == White then whiteElo else blackElo
  }

  /** `analyze_position_worker`: no engine or an empty analysis gives no best
      move; otherwise the first line's first move and score. An empty first
      line raises IndexError, as does a failing engine call. */
  function AnalysePosition(engine: Option<Analyser>, p: Position): (r: Attempt<Option<Best>>)
    ensures engine.None? ==> r == Returned(None)
    ensures engine.Some? ==> (r.Raised? <==>
              engine.value.multiPv(p).Raised?
              || (|engine.value.multiPv(p).value| > 0 && |engine.value.multiPv(p).value[0].pv| == 0))
    ensures r == Returned(None) <==> engine.None? || engine.value.multiPv(p) == Returned([])
    ensures r.Returned? && r.value.Some? ==>
              && engine.Some? && engine.value.multiPv(p) == Returned(r.value.value.lines)
              && |r.value.value.lines| > 0 && |r.value.value.lines[0].pv| > 0
              && r.value.value.move == r.value.value.lines[0].pv[0]
              && r.value.value.score == r.value.value.lines[0].score
  {
    if engine.None? then Returned(None)
    else
      match engine.value.multiPv(p)
      case Raised(e) => Raised(e)
      case Returned(info) =>
        if |info| == 0 then Returned(None)
        else if |info[0].pv| == 0 then Raised("list index out of range")
        else Returned(Some(Best(info[0].pv[0], info[0].score, info)))
  }

  /** Line `i` is the first analysed line whose first move is `m`, and every
      line before it has a first move. */
  ghost predicate FirstMatch(lines: seq<Line>, m: Move, i: int)
  {
    && 0 <= i < |lines| && |lines[i].pv| > 0 && lines[i].pv[0] == m
    && forall j :: 0 <= j < i ==> |lines[j].pv| > 0 && lines[j].pv[0] != m
  }

  /** Line `i` is the first analysed line without moves, and every line
      before it has a first move other than `m`. */
  ghost predicate FirstEmpty(lines: seq<Line>, m: Move, i: int)
  {
    && 0 <= i < |lines| && |lines[i].pv| == 0
    && forall j :: 0 <= j < i ==> |lines[j].pv| > 0 && lines[j].pv[0] != m
  }

  /** Every analysed line has a first move and none of them is `m`. */
  ghost predicate NoMatch(lines: seq<Line>, m: Move)
  {
    forall j :: 0 <= j < |lines| ==> |lines[j].pv| > 0 && lines[j].pv[0] != m
  }

  /** Past a first line that has a move other than `m`, the search outcomes
      of the remaining lines are those of all lines, one index further on. */
  lemma SearchPastFirst(lines: seq<Line>, m: Move)
    requires |lines| > 0 && |lines[0].pv| > 0 && lines[0].pv[0] != m
    ensures forall i :: FirstMatch(lines[1..], m, i) <==> FirstMatch(lines, m, i + 1)
    ensures forall i :: FirstEmpty(lines[1..], m, i) <==> FirstEmpty(lines, m, i + 1)
    ensures forall i :: FirstMatch(lines, m, i) || FirstEmpty(lines, m, i) ==> i > 0
    ensures NoMatch(lines[1..], m) <==> NoMatch(lines, m)
  {
    forall i
      ensures FirstMatch(lines[1..], m, i) <==> FirstMatch(lines, m, i + 1)
      ensures FirstEmpty(lines[1..], m, i) <==> FirstEmpty(lines, m, i + 1)
    {
      if 0 <= i < |lines| - 1 {
        assert forall j :: 0 <= j < i + 1 ==> j == 0 || lines[1..][j - 1] == lines[j];
      }
    }
    assert forall j :: 0 < j < |lines| ==> lines[1..][j - 1] == lines[j];
  }

  /** The search of lines 88-91: the score of the first line whose first move
      is the played move, None if no line has it, and IndexError when a line
      without moves is reached first. */
  function MatchedScore(lines: seq<Line>, m: Move): (r: Attempt<Option<int>>)
    ensures r.Returned? && r.value.Some? <==> exists i :: FirstMatch(lines, m, i)
    ensures r.Returned? && r.value.Some? ==>
              exists i :: FirstMatch(lines, m, i) && r.value.value == lines[i].score
    ensures r == Returned(None) <==> NoMatch(lines, m)
    ensures r.Raised? <==> exists i :: FirstEmpty(lines, m, i)
    decreases |lines|
  {
    if |lines| == 0 then Returned(None)
    else if |lines[0].pv| == 0 then
      assert FirstEmpty(lines, m, 0);
      Raised("list index out of range")
    else if lines[0].pv[0] == m then
      assert FirstMatch(lines, m, 0);
      Returned(Some(lines[0].score))
    else
      SearchPastFirst(lines, m);
      MatchedScore(lines[1..], m)
  }

  /** A record as lines 102-112 build it. */
  function MakeRecord(p: Position, elo: int, best: int, human: int): (rec: Record)
    ensures rec.fen == p && rec.elo == elo
    ensures rec.bestScore == best && rec.humanScore == human
    ensures rec.bestScore == rec.humanScore + rec.scoreDiff
    ensures rec.isBlunder == 1 <==> rec.scoreDiff > BlunderThreshold
    ensures rec.isBlunder == 0 <==> rec.scoreDiff <= BlunderThreshold
    ensures rec.complexity == 0
  {
    var diff := best - human;
    Record(p, elo, best, human, diff, if diff > BlunderThreshold then 1 else 0, 0)
  }

  /** The human score of lines 93-99 from the depth-5 evaluation of the
      position after the move, relative to the opponent: its negation, or
      -9999 when the score cannot be read. */
  function FallbackScore(eval: Option<int>): (s: int)
    ensures eval.Some? ==> s + eval.value == 0
    ensures eval.None? ==> s == UnreadableScore
  {
    if eval.Some? then -eval.value else UnreadableScore
  }

  /** Every record the extraction emits satisfies lines 102-112 and 74. */
  ghost predicate WellFormed(rec: Record, whiteElo: int, blackElo: int)
  {
    && rec.elo == MoverElo(rec.fen, whiteElo, blackElo)
    && rec.scoreDiff == rec.bestScore - rec.humanScore
    && rec.isBlunder == (if rec.scoreDiff > BlunderThreshold then 1 else 0)
    && rec.complexity == 0
  }

  /** The human score came from one of the three sources of lines 87-99. */
  ghost predicate ScoredFrom(engine: Analyser, p: Position, m: Move, rec: Record)
  {
    && engine.multiPv(p).Returned?
    && var lines := engine.multiPv(p).value;
    && |lines| > 0 && |lines[0].pv| > 0 && rec.bestScore == lines[0].score
    && (|| (exists i :: FirstMatch(lines, m, i) && rec.humanScore == lines[i].score)
        || (&& NoMatch(lines, m)
            && engine.single(Push(p, m)).Returned?
            && rec.humanScore == FallbackScore(engine.single(Push(p, m)).value)))
  }

  /** Exactly the engine answers for which the loop body reaches the append
      at line 112: the analysis returns lines, the first has a move, and the
      played move is either found among them or every line has a different
      first move and the depth-5 analysis returns. */
  ghost predicate Scorable(engine: Analyser, p: Position, m: Move)
  {
    && engine.multiPv(p).Returned?
    && var lines := engine.multiPv(p).value;
    && |lines| > 0 && |lines[0].pv| > 0
    && (|| (exists i :: FirstMatch(lines, m, i))
        || (NoMatch(lines, m) && engine.single(Push(p, m)).Returned?))
  }

  /** The engine answers that send the loop body into the handler at line
      113 after line 94 has pushed the move: no line has the played move and
      the depth-5 analysis raises. */
  ghost predicate FallbackRaises(engine: Option<Analyser>, p: Position, m: Move)
  {
    && engine.Some? && engine.value.multiPv(p).Returned?
    && var lines := engine.value.multiPv(p).value;
    && |lines| > 0 && |lines[0].pv| > 0
    && NoMatch(lines, m) && engine.value.single(Push(p, m)).Raised?
  }

  /** One iteration of the loop with the pushed move popped again on every
      path, so the board always advances by exactly the played move. This is
      the definition the rest of the model uses. */
  function ProcessMove(engine: Option<Analyser>, p: Position, m: Move, whiteElo: int, blackElo: int): (st: Step)
    ensures st.board == Push(p, m)
    ensures st.record.Some? <==> engine.Some? && Scorable(engine.value, p, m)
    ensures st.record.Some? ==> st.record.value.fen == p && WellFormed(st.record.value, whiteElo, blackElo)
    ensures st.record.Some? ==> engine.Some? && ScoredFrom(engine.value, p, m, st.record.value)
    ensures engine.None? || engine.value.multiPv(p) == Returned([]) ==> st.record.None?
    ensures engine.Some? && engine.value.multiPv(p).Raised? ==> st.record.None?
  {
    var elo := MoverElo(p, whiteElo, blackElo);
    match AnalysePosition(engine, p)
    case Raised(_) => Step(None, Push(p, m))
    case Returned(None) => Step(None, Push(p, m))
    case Returned(Some(best)) =>
      match MatchedScore(best.lines, m)
      case Raised(_) => Step(None, Push(p, m))
      case Returned(Some(human)) => Step(Some(MakeRecord(p, elo, best.score, human)), Push(p, m))
      case Returned(None) =>
        match engine.value.single(Push(p, m))
        case Raised(_) => Step(None, Push(p, m))
        case Returned(eval) => Step(Some(MakeRecord(p, elo, best.score, FallbackScore(eval))), Push(p, m))
  }

  /** One iteration of the loop at lines 73-118, exactly as written. When
      the depth-5 analysis at line 95 raises, the exception skips the pop at
      line 100 and the handler falls through to the push at line 118, so the
      played move ends up pushed twice. The record it emits is always the
      corrected iteration's. */
  function ProcessMoveAsWritten(engine: Option<Analyser>, p: Position, m: Move, whiteElo: int, blackElo: int): (st: Step)
    ensures st.record == ProcessMove(engine, p, m, whiteElo, blackElo).record
    ensures FallbackRaises(engine, p, m) ==> st.board == Push(Push(p, m), m)
    ensures !FallbackRaises(engine, p, m) ==> st.board == Push(p, m)
  {
    var elo := MoverElo(p, whiteElo, blackElo);
    match AnalysePosition(engine, p)
    case Raised(_) => Step(None, Push(p, m))
    case Returned(None) => Step(None, Push(p, m))
    case Returned(Some(best)) =>
      match MatchedScore(best.lines, m)
      case Raised(_) => Step(None, Push(p, m))
      case Returned(Some(human)) => Step(Some(MakeRecord(p, elo, best.score, human)), Push(p, m))
      case Returned(None) =>
        var after := Push(p, m);
        match engine.value.single(after)
        case Raised(_) => Step(None, Push(after, m))
        case Returned(eval) =>
          var before := Pop(after);
          PopAfterPush(p, m);
          Step(Some(MakeRecord(before, elo, best.score, FallbackScore(eval))), Push(before, m))
  }

  /** The two versions differ only where the depth-5 analysis raises. */
  lemma {:induction false} AsWrittenAgreesOffErrorPath(engine: Option<Analyser>, p: Position, m: Move, whiteElo: int, blackElo: int)
    requires !FallbackRaises(engine, p, m)
    ensures ProcessMoveAsWritten(engine, p, m, whiteElo, blackElo) == ProcessMove(engine, p, m, whiteElo, blackElo)
  {
    var a := ProcessMoveAsWritten(engine, p, m, whiteElo, blackElo);
    var c := ProcessMove(engine, p, m, whiteElo, blackElo);
    assert a.record == c.record && a.board == c.board;
  }

  /** The discrepancy, on a concrete input: an engine whose analysis finds
      no line for the played move and whose depth-5 analysis then raises
      leaves the board two plies ahead instead of one. */
  lemma DoublePushWitness()
    ensures var engine := Analyser(
                (q: Position) => Returned([Line(["e2e4"], 30)]),
                (q: Position) => Raised("engine process died"));
            var p := Position("startpos", White, []);
            && ProcessMoveAsWritten(Some(engine), p, "d2d4", 1500, 1500).board.played == ["d2d4", "d2d4"]
            && ProcessMove(Some(engine), p, "d2d4", 1500, 1500).board.played == ["d2d4"]
  {
    var engine := Analyser(
      (q: Position) => Returned([Line(["e2e4"], 30)]),
      (q: Position) => Raised("engine process died"));
    var p := Position("startpos", White, []);
    assert NoMatch([Line(["e2e4"], 30)], "d2d4");
    assert FallbackRaises(Some(engine), p, "d2d4");
  }

  /** The loop at lines 73-118 over the moves still to play, with the
      corrected iteration. */
  function Walk(engine: Option<Analyser>, p: Position, moves: seq<Move>, whiteElo: int, blackElo: int): (x: Extraction)
    ensures x.board == PlayAll(p, moves)
    ensures |x.records| <= |moves|
    ensures forall i :: 0 <= i < |x.records| ==> WellFormed(x.records[i], whiteElo, blackElo)
    ensures forall i :: 0 <= i < |x.records| ==>
              exists k :: 0 <= k < |moves| && x.records[i].fen == PlayAll(p, moves[..k])
    decreases |moves|
  {
    if |moves| == 0 then
      assert p.played + moves == p.played;
      Extraction([], p)
    else
      var step := ProcessMove(engine, p, moves[0], whiteElo, blackElo);
      var rest := Walk(engine, step.board, moves[1..], whiteElo, blackElo);
      WalkShift(p, moves);
      assert step.board.played + moves[1..] == p.played + moves;
      Extraction((if step.record.Some? then [step.record.value] else []) + rest.records, rest.board)
  }

  /** Positions reached after the first move are positions of the whole walk. */
  lemma WalkShift(p: Position, moves: seq<Move>)
    requires |moves| > 0
    ensures PlayAll(p, moves[..0]) == p
    ensures forall k :: 0 <= k < |moves| - 1 ==>
              PlayAll(Push(p, moves[0]), moves[1..][..k]) == PlayAll(p, moves[..k + 1])
  {
    assert p.played + moves[..0] == p.played;
    forall k | 0 <= k < |moves| - 1
      ensures PlayAll(Push(p, moves[0]), moves[1..][..k]) == PlayAll(p, moves[..k + 1])
    {
      assert p.played + [moves[0]] + moves[1..][..k] == p.played + moves[..k + 1];
    }
  }

  /** What each iteration of the corrected loop yields, move by move: the
      optional record for the position before move `k`. */
  function StepRecords(engine: Option<Analyser>, p: Position, moves: seq<Move>, whiteElo: int, blackElo: int): seq<Option<Record>>
  {
    seq(|moves|, k requires 0 <= k < |moves| => ProcessMove(engine, PlayAll(p, moves[..k]), moves[k], whiteElo, blackElo).record)
  }

  /** The records of the walk are, in move order, the records the single
      iterations produce at the positions of the game. */
  lemma {:induction false} WalkRecordsInOrder(engine: Option<Analyser>, p: Position, moves: seq<Move>, whiteElo: int, blackElo: int)
    ensures Walk(engine, p, moves, whiteElo, blackElo).records == Somes(StepRecords(engine, p, moves, whiteElo, blackElo))
    decreases |moves|
  {
    if |moves| > 0 {
      var q := Push(p, moves[0]);
      var steps := StepRecords(engine, p, moves, whiteElo, blackElo);
      var later := StepRecords(engine, q, moves[1..], whiteElo, blackElo);
      WalkShift(p, moves);
      assert steps[1..] == later;
      WalkRecordsInOrder(engine, q, moves[1..], whiteElo, blackElo);
    }
  }

  /** The loop at lines 73-118 exactly as written, with the double push of
      the error path carried into every later iteration. */
  function WalkAsWritten(engine: Option<Analyser>, p: Position, moves: seq<Move>, whiteElo: int, blackElo: int): (x: Extraction)
    ensures |x.records| <= |moves|
    ensures forall i :: 0 <= i < |x.records| ==> WellFormed(x.records[i], whiteElo, blackElo)
    decreases |moves|
  {
    if |moves| == 0 then Extraction([], p)
    else
      var step := ProcessMoveAsWritten(engine, p, moves[0], whiteElo, blackElo);
      var rest := WalkAsWritten(engine, step.board, moves[1..], whiteElo, blackElo);
      Extraction((if step.record.Some? then [step.record.value] else []) + rest.records, rest.board)
  }

  /** When the depth-5 analysis never raises along the game, the loop as
      written and the corrected loop agree. */
  lemma {:induction false} WalkAsWrittenAgrees(engine: Option<Analyser>, p: Position, moves: seq<Move>, whiteElo: int, blackElo: int)
    requires forall k :: 0 <= k < |moves| ==> !FallbackRaises(engine, PlayAll(p, moves[..k]), moves[k])
    ensures WalkAsWritten(engine, p, moves, whiteElo, blackElo) == Walk(engine, p, moves, whiteElo, blackElo)
    decreases |moves|
  {
    if |moves| > 0 {
      WalkShift(p, moves);
      AsWrittenAgreesOffErrorPath(engine, p, moves[0], whiteElo, blackElo);
      var q := Push(p, moves[0]);
      forall k | 0 <= k < |moves[1..]|
        ensures !FallbackRaises(engine, PlayAll(q, moves[1..][..k]), moves[1..][k])
      {
        assert moves[1..][k] == moves[k + 1];
      }
      WalkAsWrittenAgrees(engine, q, moves[1..], whiteElo, blackElo);
    } else {
      assert p.played + moves == p.played;
    }
  }

  /** `process_single_game`: both Elo headers must be present, not "?",
      and integers; otherwise the game yields no records. With valid headers
      the records are those of the loop as written. */
  function ProcessSingleGame(engine: Option<Analyser>, game: Game): (records: seq<Record>)
    ensures HeaderOr(game.headers, "WhiteElo") == "?" || HeaderOr(game.headers, "BlackElo") == "?" ==> records == []
    ensures ParseInt(HeaderOr(game.headers, "WhiteElo")).None? || ParseInt(HeaderOr(game.headers, "BlackElo")).None? ==> records == []
    ensures |records| <= |game.moves|
    ensures records != [] ==>
              && ParseInt(HeaderOr(game.headers, "WhiteElo")).Some?
              && ParseInt(HeaderOr(game.headers, "BlackElo")).Some?
              && forall i :: 0 <= i < |records| ==>
                   WellFormed(records[i], ParseInt(HeaderOr(game.headers, "WhiteElo")).value,
                                          ParseInt(HeaderOr(game.headers, "BlackElo")).value)
    ensures ParseInt(HeaderOr(game.headers, "WhiteElo")).Some? && ParseInt(HeaderOr(game.headers, "BlackElo")).Some? ==>
              records == WalkAsWritten(engine, game.root, game.moves,
                                       ParseInt(HeaderOr(game.headers, "WhiteElo")).value,
                                       ParseInt(HeaderOr(game.headers, "BlackElo")).value).records
  {
    var white := HeaderOr(game.headers, "WhiteElo");
    var black := HeaderOr(game.headers, "BlackElo");
    if white == "?" || black == "?" then
      assert ParseInt("?").None?;
      []
    else if ParseInt(white).Some? && ParseInt(black).Some? then
      WalkAsWritten(engine, game.root, game.moves, ParseInt(white).value, ParseInt(black).value).records
    else []
  }

  /** A game with valid headers on which the depth-5 analysis never raises
      yields, in move order, one record per position the corrected
      iteration scores. */
  lemma GameRecords(engine: Option<Analyser>, game: Game, whiteElo: int, blackElo: int)
    requires ParseInt(HeaderOr(game.headers, "WhiteElo")) == Some(whiteElo)
    requires ParseInt(HeaderOr(game.headers, "BlackElo")) == Some(blackElo)
    requires forall k :: 0 <= k < |game.moves| ==>
               !FallbackRaises(engine, PlayAll(game.root, game.moves[..k]), game.moves[k])
    ensures ProcessSingleGame(engine, game) == Somes(StepRecords(engine, game.root, game.moves, whiteElo, blackElo))
  {
    WalkAsWrittenAgrees(engine, game.root, game.moves, whiteElo, blackElo);
    WalkRecordsInOrder(engine, game.root, game.moves, whiteElo, blackElo);
  }
}

=== FILE: services.dfy ===
/**
  The Gradio entry point of app.py: the channel-first encoder with a batch
  dimension, and `predict`'s guards and result. The network is an oracle
  from (batched board tensor, scaled Elo) to a probability.
 */
module AppService {
  import opened Base
  import opened Chess
  import opened Encoder

  const NotLoaded := "Model not loaded. Please train the model first or check HF Repo."
  const InvalidFen := "Invalid FEN string."

  /** `model(board_tensor, elo_tensor).item()`. */
  datatype Net = Net(probability: (seq<Tensor3>, real) -> real)

  /** What the Gradio label shows: a message, or the two confidences. */
  datatype Output = Message(text: string) | Confidences(blunder: real, safe: real)

  /** app.py's `fen_to_tensor`: the channel-first encoding with a leading
      batch dimension of size one. */
  function FenToBatchedTensor(pm: Placement): (b: seq<Tensor3>)
    ensures |b| == 1 && EncodesFirst(b[0], pm)
  {
    [FenToTensorFirst(pm)]
  }

  /** `predict`: no model comes first, whatever the FEN; then a FEN the board
      constructor rejects; otherwise the network's blunder probability and
      its complement. */
  function Predict(model: Option<Net>, parse: string -> Attempt<Placement>, fen: string, elo: real): (r: Output)
    ensures model.None? ==> r == Message(NotLoaded)
    ensures model.Some? && parse(fen).Raised? ==> r == Message(InvalidFen)
    ensures r.Confidences? <==> model.Some? && parse(fen).Returned?
    ensures r.Confidences? ==>
              && r.blunder + r.safe == 1.0
              && r.blunder == model.value.probability(FenToBatchedTensor(parse(fen).value), elo / 3000.0)
  {
    if model.None? then Message(NotLoaded)
    else
      match parse(fen)
      case Raised(_) => Message(InvalidFen)
      case Returned(pm) =>
        var p := model.value.probability(FenToBatchedTensor(pm), elo / 3000.0);
        Confidences(p, 1.0 - p)
  }
}

/**
  The FastAPI handlers of src/api.py: the health check and `/predict`.
  The Keras network is an oracle that may raise.
 */
module ApiService {
  import opened Base
  import opened Chess
  import opened Encoder

  const ModelNotLoaded := "Model not loaded"

  /** Above this probability a position is reported as risky. */
  const RiskThreshold: real := 0.5

  /** `model.predict(...)[0][0]` on (batched board tensor, scaled Elo). */
  datatype Net = Net(predict: (seq<Tensor3>, real) -> Attempt<real>)

  datatype Request = Request(fen: string, elo: int)

  datatype Health = Health(status: string, modelLoaded: bool)

  /** The JSON bodies `/predict` returns. */
  datatype Response =
    | Failure(error: string)
    | Prediction(fen: string, elo: int, humanErrorProbability: real, isRisky: bool)

  /** `GET /`. */
  function ReadRoot(model: Option<Net>): (h: Health)
    ensures h.status == "ok"
    ensures h.modelLoaded <==> model.Some?
  {
    Health("ok", model.Some?)
  }

  /** `POST /predict`: without a model only the error; an exception while
      encoding or predicting becomes its message; otherwise the request's
      fen and elo echoed with the probability and the risk flag. */
  function Predict(model: Option<Net>, parse: string -> Attempt<Placement>, req: Request): (r: Response)
    ensures model.None? ==> r == Failure(ModelNotLoaded)
    ensures model.Some? && parse(req.fen).Raised? ==> r == Failure(parse(req.fen).message)
    ensures model.Some? && parse(req.fen).Returned? ==>
              var outcome := model.value.predict([FenToTensorLast(parse(req.fen).value)], req.elo as real / 3000.0);
              && (outcome.Raised? ==> r == Failure(outcome.message))
              && (outcome.Returned? ==> r.Prediction? && r.humanErrorProbability == outcome.value)
    ensures r.Prediction? ==> r.fen == req.fen && r.elo == req.elo
    ensures r.Prediction? ==> (r.isRisky <==> r.humanErrorProbability > RiskThreshold)
  {
    if model.None? then Failure(ModelNotLoaded)
    else
      match parse(req.fen)
      case Raised(e) => Failure(e)
      case Returned(pm) =>
        match model.value.predict([FenToTensorLast(pm)], req.elo as real / 3000.0)
        case Raised(e) => Failure(e)
        case Returned(p) => Prediction(req.fen, req.elo, p, p > RiskThreshold)
  }
}

/**
  The command-line tool src/predict_position.py: which FEN it analyses,
  when it gives up, and which verdict it prints. The Keras network is an
  oracle from a batched channel-last board tensor to a probability.
 */
module PredictPosition {
  import opened Base
  import opened Chess
  import opened Encoder

  /** `chess.STARTING_FEN`. */
  const StartingFen := "rnbqkbnr/pppppppp/8/8/8/8/PPPPPPPP/RNBQKBNR w KQkq - 0 1"

  const HighError := ">> High likelihood of human error here!"
  const Stable := ">> Position seems stable/standard."

  datatype Net = Net(predict: seq<Tensor3> -> real)

  /** How a run ends: the model did not load, the FEN was rejected by the
      board constructor (an uncaught exception), reading the side to move's
      name for the report raised (uncaught, after the prediction), or the
      report and its verdict were printed. */
  datatype Outcome =
    | LoadFailed(error: string)
    | BoardRejected(error: string)
    | ReportFailed(probability: real, error: string)
    | Analysed(side: string, probability: real, verdict: string)

  /** Whether the usage line was printed, the FEN analysed, and the outcome. */
  datatype Report = Report(usageShown: bool, fen: string, outcome: Outcome)

  /** `main` with `argv` = `sys.argv` (the script name first), the result of
      loading the model, the board constructor, and the attribute read
      `board.turn_name` of line 52, which may raise. */
  function Main(argv: seq<string>, load: Attempt<Net>, parse: string -> Attempt<Placement>, turnName: Attempt<string>): (r: Report)
    ensures r.usageShown <==> |argv| < 2
    ensures |argv| < 2 ==> r.fen == StartingFen
    ensures |argv| >= 2 ==> r.fen == argv[1]
    ensures load.Raised? ==> r.outcome == LoadFailed(load.message)
    ensures load.Returned? && parse(r.fen).Raised? ==> r.outcome == BoardRejected(parse(r.fen).message)
    ensures load.Returned? && parse(r.fen).Returned? ==>
              var p := load.value.predict([FenToTensorLast(parse(r.fen).value)]);
              && (turnName.Raised? ==> r.outcome == ReportFailed(p, turnName.message))
              && (turnName.Returned? ==> r.outcome.Analysed? && r.outcome.side == turnName.value
                                         && r.outcome.probability == p)
    ensures r.outcome.Analysed? ==>
              && load.Returned? && parse(r.fen).Returned? && turnName.Returned?
              && r.outcome.probability == load.value.predict([FenToTensorLast(parse(r.fen).value)])
              && (r.outcome.verdict == HighError <==> r.outcome.probability > 0.5)
              && (r.outcome.verdict == Stable <==> r.outcome.probability <= 0.5)
  {
    var fen := if |argv| < 2 then StartingFen else argv[1];
    var outcome :=
      match load
      case Raised(e) => LoadFailed(e)
      case Returned(net) =>
        match parse(fen)
        case Raised(e) => BoardRejected(e)
        case Returned(pm) =>
          var p := net.predict([FenToTensorLast(pm)]);
          match turnName
          case Raised(e) => ReportFailed(p, e)
          case Returned(side) => Analysed(side, p, if p > 0.5 then HighError else Stable);
    Report(|argv| < 2, fen, outcome)
  }
}

=== FILE: uci.dfy ===
/**
  The minimal Universal Chess Interface front end of src/human_engine.py:
  `uci_loop` reads one line at a time, splits it into tokens and reacts to
  `uci`, `isready`, `position ... moves ...`, `go` and `quit`; every
  exception inside the loop body is swallowed, EOFError at end of input
  included. The loop is a fold over the reads, each a line or end of input.
  Its state is the list of move tokens applied to the standard
  starting position and whether the loop still runs; its output is the list
  of printed lines. `push_uci` (legality) and the engine analysis behind
  `get_best_move` are oracles.
 */
module UciFrontEnd {
  import opened Base
  import opened Decimal

  const IdName := "id name HumanLikeChessAI"
  const IdAuthor := "id author Antigravity"

  /** The collaborators of the loop. `legal(done, m)` says whether `push_uci(m)`
      accepts `m` on the standard starting position after the moves `done`;
      `analyse(done)` is the five-line engine analysis of that board. */
  datatype EngineIo = EngineIo(
    legal: (seq<Move>, Move) -> bool,
    analyse: seq<Move> -> Attempt<seq<Line>>)

  /** `self.board` (the standard start plus `moves`) and whether the loop runs. */
  datatype Engine = Engine(moves: seq<Move>, running: bool)

  /** What one or more input lines do: the next state and the printed lines. */
  datatype Reaction = Reaction(state: Engine, out: seq<string>)

  /** `get_best_move`'s own printing and its result. */
  datatype Search = Search(printed: seq<string>, result: Attempt<Option<Move>>)

  /** The engine as `HumanEngine()` leaves it: standard start, loop about to run. */
  const Start := Engine([], true)

  // ---------------------------------------------------------------- str.split()

  /** The end of the token that starts at `i`. */
  function TokenEnd(s: string, i: nat): (j: nat)
    requires i <= |s|
    ensures i <= j <= |s|
    ensures forall k :: i <= k < j ==> !IsSpace(s[k])
    ensures j < |s| ==> IsSpace(s[j])
    decreases |s| - i
  {
    if i == |s| || IsSpace(s[i]) then i else TokenEnd(s, i + 1)
  }

  /** The characters of `s` that are not whitespace, in order. */
  function RemoveSpaces(s: string): string
    decreases |s|
  {
    if |s| == 0 then [] else (if IsSpace(s[0]) then [] else [s[0]]) + RemoveSpaces(s[1..])
  }

  /** All tokens glued together. */
  function Concat(toks: seq<string>): string
    decreases |toks|
  {
    if |toks| == 0 then [] else toks[0] + Concat(toks[1..])
  }

  /** Tokens joined with single spaces, the way a GUI writes a command. */
  function JoinSpaced(toks: seq<string>): string
    decreases |toks|
  {
    if |toks| == 0 then []
    else if |toks| == 1 then toks[0]
    else toks[0] + " " + JoinSpaced(toks[1..])
  }

  lemma {:induction false} RemoveSpacesAppend(a: string, b: string)
    ensures RemoveSpaces(a + b) == RemoveSpaces(a) + RemoveSpaces(b)
    decreases |a|
  {
    if |a| == 0 {
      assert a + b == b;
    } else {
      assert (a + b)[1..] == a[1..] + b;
      RemoveSpacesAppend(a[1..], b);
    }
  }

  lemma {:induction false} RemoveSpacesKeeps(a: string)
    requires NoSpace(a)
    ensures RemoveSpaces(a) == a
    decreases |a|
  {
    if |a| > 0 {
      RemoveSpacesKeeps(a[1..]);
    }
  }

  /** `line.split()`: maximal runs of non-whitespace characters. No token is
      empty or holds whitespace, and together they hold exactly the
      non-whitespace characters of the line, in order. */
  function Split(s: string): (toks: seq<string>)
    ensures forall k :: 0 <= k < |toks| ==> |toks[k]| > 0 && NoSpace(toks[k])
    ensures Concat(toks) == RemoveSpaces(s)
    decreases |s|
  {
    if |s| == 0 then []
    else if IsSpace(s[0]) then Split(s[1..])
    else
      var j := TokenEnd(s, 0);
      var rest := Split(s[j..]);
      assert s == s[..j] + s[j..];
      RemoveSpacesAppend(s[..j], s[j..]);
      RemoveSpacesKeeps(s[..j]);
      assert ([s[..j]] + rest)[1..] == rest;
      [s[..j]] + rest
  }

  /** A token followed by whitespace (or nothing) ends where the token ends. */
  lemma {:induction false} TokenEndAt(t: string, rest: string, i: nat)
    requires i <= |t| && NoSpace(t)
    requires |rest| == 0 || IsSpace(rest[0])
    ensures TokenEnd(t + rest, i) == |t|
    decreases |t| - i
  {
    if i < |t| {
      assert (t + rest)[i] == t[i];
      TokenEndAt(t, rest, i + 1);
    } else if |rest| > 0 {
      assert (t + rest)[i] == rest[0];
    }
  }

  /** Splitting a command written with single spaces gives its tokens back. */
  lemma {:induction false} SplitJoinSpaced(toks: seq<string>)
    requires forall k :: 0 <= k < |toks| ==> |toks[k]| > 0 && NoSpace(toks[k])
    ensures Split(JoinSpaced(toks)) == toks
    decreases |toks|
  {
    if |toks| == 1 {
      var t := toks[0];
      TokenEndAt(t, [], 0);
      assert t + [] == t;
      assert t[|t|..] == [];
    } else if |toks| > 1 {
      var t := toks[0];
      var tail := JoinSpaced(toks[1..]);
      var s := t + " " + tail;
      assert s == t + (" " + tail);
      TokenEndAt(t, " " + tail, 0);
      assert s[..|t|] == t;
      assert s[|t|..] == " " + tail;
      assert (" " + tail)[1..] == tail;
      SplitJoinSpaced(toks[1..]);
    }
  }

  /** Whitespace-only separators around `n` tokens: one before, one after,
      and a non-empty one between each two neighbours. */
  ghost predicate Separators(seps: seq<string>, n: nat)
  {
    && |seps| == n + 1
    && (forall i, k :: 0 <= i < |seps| && 0 <= k < |seps[i]| ==> IsSpace(seps[i][k]))
    && (forall i :: 0 < i < n ==> |seps[i]| > 0)
  }

  /** `seps[0] + toks[0] + seps[1] + ... + toks[n - 1] + seps[n]`. */
  function Interleave(toks: seq<string>, seps: seq<string>): string
    requires |seps| == |toks| + 1
    decreases |toks|
  {
    if |toks| == 0 then seps[0] else seps[0] + toks[0] + Interleave(toks[1..], seps[1..])
  }

  /** Whitespace in front of a line does not change its tokens. */
  lemma {:induction false} SplitSkipsSpace(w: string, s: string)
    requires forall k :: 0 <= k < |w| ==> IsSpace(w[k])
    ensures Split(w + s) == Split(s)
    decreases |w|
  {
    if |w| == 0 {
      assert w + s == s;
    } else {
      assert (w + s)[1..] == w[1..] + s;
      SplitSkipsSpace(w[1..], s);
    }
  }

  /** Tokens are maximal: whatever whitespace separates and surrounds them,
      splitting gives exactly the tokens back. */
  lemma {:induction false} SplitInterleave(toks: seq<string>, seps: seq<string>)
    requires forall k :: 0 <= k < |toks| ==> |toks[k]| > 0 && NoSpace(toks[k])
    requires Separators(seps, |toks|)
    ensures Split(Interleave(toks, seps)) == toks
    decreases |toks|
  {
    if |toks| == 0 {
      assert seps[0] + [] == seps[0];
      SplitSkipsSpace(seps[0], []);
    } else {
      var t := toks[0];
      var rest := Interleave(toks[1..], seps[1..]);
      assert Split(Interleave(toks, seps)) == Split(t + rest) by {
        assert Interleave(toks, seps) == seps[0] + (t + rest);
        SplitSkipsSpace(seps[0], t + rest);
      }
      assert Split(rest) == toks[1..] by {
        SeparatorsTail(seps, |toks|);
        SplitInterleave(toks[1..], seps[1..]);
      }
      assert |rest| == 0 || IsSpace(rest[0]) by {
        if |seps[1]| > 0 {
          InterleaveHead(toks[1..], seps[1..]);
        } else {
          assert |toks| == 1 && rest == seps[1];
        }
      }
      assert Split(t + rest) == [t] + Split(rest) by {
        SplitToken(t, rest);
      }
      assert [t] + toks[1..] == toks;
    }
  }

  /** Dropping the first separator leaves the separators of the remaining tokens. */
  lemma SeparatorsTail(seps: seq<string>, n: nat)
    requires n > 0 && Separators(seps, n)
    ensures Separators(seps[1..], n - 1)
  {
    assert forall i :: 0 <= i < |seps[1..]| ==> seps[1..][i] == seps[i + 1];
  }

  /** An interleaving starts with the first character of its first separator. */
  lemma InterleaveHead(toks: seq<string>, seps: seq<string>)
    requires |seps| == |toks| + 1 && |seps[0]| > 0
    ensures Interleave(toks, seps)[0] == seps[0][0]
  {
  }

  /** A token followed by whitespace (or nothing) is split off whole. */
  lemma SplitToken(t: string, rest: string)
    requires |t| > 0 && NoSpace(t)
    requires |rest| == 0 || IsSpace(rest[0])
    ensures Split(t + rest) == [t] + Split(rest)
  {
    TokenEndAt(t, rest, 0);
    assert (t + rest)[..|t|] == t && (t + rest)[|t|..] == rest;
  }

  // ---------------------------------------------------------------- position

  /** `tokens.index(x)`: the first position of `x`. */
  function IndexOf(toks: seq<string>, x: string): (i: nat)
    requires x in toks
    ensures i < |toks| && toks[i] == x
    ensures forall j :: 0 <= j < i ==> toks[j] != x
  {
    if toks[0] == x then 0
    else
      assert x in toks[1..] by {
        var k :| 0 <= k < |toks| && toks[k] == x;
        assert toks[1..][k - 1] == x;
      }
      1 + IndexOf(toks[1..], x)
  }

  /** The move tokens of a `position` command: everything after its first
      `moves` token, or nothing. Whatever precedes `moves`, a `fen` argument
      included, is ignored. */
  function MovesArgument(toks: seq<string>): (cands: seq<Move>)
    ensures "moves" !in toks ==> cands == []
    ensures "moves" in toks ==> exists i :: 0 <= i < |toks| && toks[i] == "moves" && "moves" !in toks[..i] && cands == toks[i + 1..]
  {
    if "moves" in toks then
      var i := IndexOf(toks, "moves");
      assert "moves" !in toks[..i];
      toks[i + 1..]
    else []
  }

  /** The first `k` of `cands` are each legal after `done` and the ones
      before them, and the next one, if any, is not. */
  ghost predicate AcceptsPrefix(legal: (seq<Move>, Move) -> bool, done: seq<Move>, cands: seq<Move>, k: nat)
  {
    && k <= |cands|
    && (forall i :: 0 <= i < k ==> legal(done + cands[..i], cands[i]))
    && (k < |cands| ==> !legal(done + cands[..k], cands[k]))
  }

  /** How many of `cands` `push_uci` accepts in a row after the moves `done`;
      the first rejected token raises and ends the loop over the tokens. */
  function Accepted(legal: (seq<Move>, Move) -> bool, done: seq<Move>, cands: seq<Move>): (k: nat)
    ensures AcceptsPrefix(legal, done, cands, k)
    decreases |cands|
  {
    if |cands| == 0 || !legal(done, cands[0]) then
      assert done + cands[..0] == done;
      0
    else
      var rest := Accepted(legal, done + [cands[0]], cands[1..]);
      assert forall i :: 0 <= i < rest ==> done + [cands[0]] + cands[1..][..i] == done + cands[..i + 1];
      assert forall i :: 0 <= i < rest ==> cands[1..][i] == cands[i + 1];
      assert done + cands[..0] == done;
      assert done + [cands[0]] + cands[1..][..rest] == done + cands[..rest + 1];
      1 + rest
  }

  /** The board after `position`: reset to the standard start, then every
      candidate pushed in order up to the first one `push_uci` rejects; the
      ones pushed before it stay. */
  ghost predicate PushedUntilRejected(legal: (seq<Move>, Move) -> bool, applied: seq<Move>, cands: seq<Move>)
  {
    && |applied| <= |cands| && applied == cands[..|applied|]
    && (forall i :: 0 <= i < |applied| ==> legal(applied[..i], applied[i]))
    && (|applied| < |cands| ==> !legal(applied, cands[|applied|]))
  }

  /** Accepting from the standard start is pushing until the first rejection. */
  lemma AcceptedFromStart(legal: (seq<Move>, Move) -> bool, cands: seq<Move>, k: nat)
    requires AcceptsPrefix(legal, [], cands, k)
    ensures PushedUntilRejected(legal, cands[..k], cands)
  {
    assert forall i :: 0 <= i <= k ==> [] + cands[..i] == cands[..k][..i];
    assert [] + cands[..k] == cands[..k];
  }

  /** Lines 122-126: the moves on the board after a `position` command. */
  function PositionMoves(legal: (seq<Move>, Move) -> bool, toks: seq<string>): (applied: seq<Move>)
    ensures PushedUntilRejected(legal, applied, MovesArgument(toks))
  {
    var cands := MovesArgument(toks);
    var k := Accepted(legal, [], cands);
    AcceptedFromStart(legal, cands, k);
    cands[..k]
  }

  // ---------------------------------------------------------------- go

  /** The line printed before the candidates are scored. */
  function AnalyzingLine(n: nat): string
  {
    "info string Analyzing " + NatToString(n) + " candidates..."
  }

  /** `print(f"bestmove {best_move}")`, where None prints as "None". */
  function BestMoveLine(best: Option<Move>): string
  {
    "bestmove " + (match best case None => "None" case Some(m) => m)
  }

  /** `get_best_move`: None when the analysis is empty, otherwise the first
      move of the first line. Every line's first move is read on the way,
      so a line without moves raises after the count has been printed. */
  function GetBestMove(io: EngineIo, moves: seq<Move>): (s: Search)
    ensures io.analyse(moves).Raised? ==> s.printed == [] && s.result.Raised?
    ensures io.analyse(moves) == Returned([]) ==> s == Search([], Returned(None))
    ensures io.analyse(moves).Returned? && |io.analyse(moves).value| > 0 ==>
              var info := io.analyse(moves).value;
              && s.printed == [AnalyzingLine(|info|)]
              && (s.result.Raised? <==> exists i :: 0 <= i < |info| && |info[i].pv| == 0)
              && (s.result.Returned? ==> s.result.value == Some(info[0].pv[0]))
  {
    match io.analyse(moves)
    case Raised(e) => Search([], Raised(e))
    case Returned(info) =>
      if |info| == 0 then Search([], Returned(None))
      else if forall i :: 0 <= i < |info| ==> |info[i].pv| > 0 then
        Search([AnalyzingLine(|info|)], Returned(Some(info[0].pv[0])))
      else Search([AnalyzingLine(|info|)], Raised("list index out of range"))
  }

  /** Lines 127-129: `go` prints what `get_best_move` prints and, unless it
      raised, the `bestmove` line. */
  function GoLines(io: EngineIo, moves: seq<Move>): (out: seq<string>)
    ensures io.analyse(moves) == Returned([]) ==> out == ["bestmove None"]
    ensures io.analyse(moves).Raised? ==> out == []
    ensures io.analyse(moves).Returned? && |io.analyse(moves).value| > 0 ==>
              var info := io.analyse(moves).value;
              && ((forall i :: 0 <= i < |info| ==> |info[i].pv| > 0) ==>
                    out == [AnalyzingLine(|info|), "bestmove " + info[0].pv[0]])
              && ((exists i :: 0 <= i < |info| && |info[i].pv| == 0) ==>
                    out == [AnalyzingLine(|info|)])
  {
    assert BestMoveLine(None) == "bestmove None";
    var s := GetBestMove(io, moves);
    s.printed + (if s.result.Returned? then [BestMoveLine(s.result.value)] else [])
  }

  // ---------------------------------------------------------------- the loop

  predicate IsCommand(toks: seq<string>, cmd: string)
  {
    |toks| > 0 && toks[0] == cmd
  }

  /** One pass of the loop body on one input line. */
  function Step(io: EngineIo, st: Engine, line: string): (r: Reaction)
    // an empty line, a whitespace-only line and an unknown command change nothing
    ensures Split(line) == [] ==> r == Reaction(st, [])
    ensures (|Split(line)| > 0 && Split(line)[0] !in {"uci", "isready", "position", "go", "quit"})
              ==> r == Reaction(st, [])
    ensures IsCommand(Split(line), "uci") ==> r == Reaction(st, [IdName, IdAuthor, "uciok"])
    ensures IsCommand(Split(line), "isready") ==> r == Reaction(st, ["readyok"])
    ensures IsCommand(Split(line), "position") ==>
              && r.out == [] && r.state.running == st.running
              && PushedUntilRejected(io.legal, r.state.moves, MovesArgument(Split(line)))
    ensures IsCommand(Split(line), "go") ==> r == Reaction(st, GoLines(io, st.moves))
    ensures IsCommand(Split(line), "quit") ==> r == Reaction(st.(running := false), [])
  {
    if |line| == 0 then Reaction(st, [])
    else
      var toks := Split(line);
      if |toks| == 0 then Reaction(st, [])
      else if toks[0] == "uci" then Reaction(st, [IdName, IdAuthor, "uciok"])
      else if toks[0] == "isready" then Reaction(st, ["readyok"])
      else if toks[0] == "position" then Reaction(st.(moves := PositionMoves(io.legal, toks)), [])
      else if toks[0] == "go" then Reaction(st, GoLines(io, st.moves))
      else if toks[0] == "quit" then Reaction(st.(running := false), [])
      else Reaction(st, [])
  }

  // ---------------------------------------------------------------- reading input

  /** One read of `input()` and the loop body after it. `input` is the line
      read, or None at end of input, where `input()` raises EOFError. As
      written (`eofQuits` false) the handler at lines 133-134 swallows that
      exception like any other and the loop reads again; with `eofQuits` end
      of input leaves the loop the way `quit` does. */
  function Read(io: EngineIo, st: Engine, input: Option<string>, eofQuits: bool): (r: Reaction)
    ensures input.Some? ==> r == Step(io, st, input.value)
    ensures input.None? && !eofQuits ==> r == Reaction(st, [])
    ensures input.None? && eofQuits ==> r == Step(io, st, "quit")
  {
    match input
    case Some(line) => Step(io, st, line)
    case None =>
      if eofQuits then
        QuitSplits();
        Reaction(st.(running := false), [])
      else Reaction(st, [])
  }

  /** The command `quit` is read as the single token `quit`. */
  lemma QuitSplits()
    ensures Split("quit") == ["quit"]
  {
    assert NoSpace("quit");
    SplitJoinSpaced(["quit"]);
  }

  /** The `while True` loop around a body that handles one read: the body
      is applied to each read in turn until it stops the loop, and the
      printed lines are collected in order. */
  function Loop(body: (Engine, Option<string>) -> Reaction, st: Engine, inputs: seq<Option<string>>): (r: Reaction)
    ensures !st.running ==> r == Reaction(st, [])
    decreases |inputs|
  {
    if |inputs| == 0 || !st.running then Reaction(st, [])
    else
      var a := body(st, inputs[0]);
      var b := Loop(body, a.state, inputs[1..]);
      Reaction(b.state, a.out + b.out)
  }

  /** Looping over `a` and then over `b` is looping over `a + b`. */
  lemma {:induction false} LoopAppend(body: (Engine, Option<string>) -> Reaction, st: Engine, a: seq<Option<string>>, b: seq<Option<string>>)
    ensures Loop(body, st, a + b)
              == Reaction(Loop(body, Loop(body, st, a).state, b).state,
                          Loop(body, st, a).out + Loop(body, Loop(body, st, a).state, b).out)
    decreases |a|
  {
    if |a| == 0 {
      assert a + b == b;
    } else if st.running {
      var r1 := body(st, a[0]);
      assert (a + b)[0] == a[0];
      assert (a + b)[1..] == a[1..] + b;
      LoopAppend(body, r1.state, a[1..], b);
      var x1 := Loop(body, r1.state, a[1..]);
      var y := Loop(body, x1.state, b);
      assert r1.out + (x1.out + y.out) == (r1.out + x1.out) + y.out;
    }
  }

  /** The loop body of lines 105-134 as a function of one read. */
  function Body(io: EngineIo, eofQuits: bool): (body: (Engine, Option<string>) -> Reaction)
    ensures forall st, input :: body(st, input) == Read(io, st, input, eofQuits)
  {
    (st: Engine, input: Option<string>) => Read(io, st, input, eofQuits)
  }

  /** `uci_loop` over the given reads; once it has stopped nothing further
      is read. */
  function Run(io: EngineIo, st: Engine, inputs: seq<Option<string>>, eofQuits: bool): (r: Reaction)
    ensures !st.running ==> r == Reaction(st, [])
  {
    Loop(Body(io, eofQuits), st, inputs)
  }

  /** Reading `a` and then `b` is reading `a + b`. */
  lemma RunAppend(io: EngineIo, st: Engine, a: seq<Option<string>>, b: seq<Option<string>>, eofQuits: bool)
    ensures Run(io, st, a + b, eofQuits)
              == Reaction(Run(io, Run(io, st, a, eofQuits).state, b, eofQuits).state,
                          Run(io, st, a, eofQuits).out + Run(io, Run(io, st, a, eofQuits).state, b, eofQuits).out)
  {
    LoopAppend(Body(io, eofQuits), st, a, b);
  }

  /** One pass of the loop: a running loop hands its read to `Read`, and a
      stopped one reads nothing. With `RunAppend` this fixes `Run` on every
      sequence of reads. */
  lemma RunOne(io: EngineIo, st: Engine, input: Option<string>, eofQuits: bool)
    ensures Run(io, st, [input], eofQuits)
              == if st.running then Read(io, st, input, eofQuits) else Reaction(st, [])
  {
    var body := Body(io, eofQuits);
    if st.running {
      var a := body(st, input);
      assert [input][1..] == [];
      assert Loop(body, a.state, []) == Reaction(a.state, []);
      assert a.out + [] == a.out;
    }
  }

  /** `quit` ends the loop: whatever follows it is never processed. */
  lemma {:induction false} QuitEndsLoop(io: EngineIo, st: Engine, before: seq<Option<string>>, quit: string, after: seq<Option<string>>, eofQuits: bool)
    requires IsCommand(Split(quit), "quit")
    ensures Run(io, st, before + [Some(quit)] + after, eofQuits) == Run(io, st, before + [Some(quit)], eofQuits)
    ensures !Run(io, st, before + [Some(quit)], eofQuits).state.running
  {
    var upto := before + [Some(quit)];
    RunAppend(io, st, upto, after, eofQuits);
    RunAppend(io, st, before, [Some(quit)], eofQuits);
    var mid := Run(io, st, before, eofQuits).state;
    if mid.running {
      assert [Some(quit)][1..] == [];
    }
    assert Run(io, st, upto, eofQuits).out + [] == Run(io, st, upto, eofQuits).out;
  }

  /** Without a `quit` line the loop as written never stops: it still runs
      after any reads, end of input included. */
  lemma {:induction false} RunsUntilQuit(io: EngineIo, st: Engine, inputs: seq<Option<string>>)
    requires forall k :: 0 <= k < |inputs| && inputs[k].Some? ==> !IsCommand(Split(inputs[k].value), "quit")
    ensures Run(io, st, inputs, false).state.running == st.running
    decreases |inputs|
  {
    if |inputs| > 0 && st.running {
      var a := Read(io, st, inputs[0], false);
      assert a.state.running;
      RunsUntilQuit(io, a.state, inputs[1..]);
    }
  }

  /** `n` reads at end of input. */
  function Eofs(n: nat): (e: seq<Option<string>>)
    ensures |e| == n && forall k :: 0 <= k < n ==> e[k].None?
  {
    seq(n, k => None)
  }

  /** At end of input the loop as written spins: any number of further
      reads changes nothing and prints nothing. */
  lemma {:induction false} EofNeverEndsLoop(io: EngineIo, st: Engine, inputs: seq<Option<string>>, n: nat)
    ensures Run(io, st, inputs + Eofs(n), false) == Run(io, st, inputs, false)
  {
    RunAppend(io, st, inputs, Eofs(n), false);
    var mid := Run(io, st, inputs, false);
    EofReadsNothing(io, mid.state, n);
    assert mid.out + [] == mid.out;
  }

  lemma {:induction false} EofReadsNothing(io: EngineIo, st: Engine, n: nat)
    ensures Run(io, st, Eofs(n), false) == Reaction(st, [])
    decreases n
  {
    if n > 0 && st.running {
      assert Eofs(n)[1..] == Eofs(n - 1);
      EofReadsNothing(io, st, n - 1);
    }
  }

  /** With end of input leaving the loop, the first end of input stops it
      after everything before it has been printed. */
  lemma {:induction false} EofEndsLoop(io: EngineIo, st: Engine, inputs: seq<Option<string>>)
    ensures !Run(io, st, inputs + [None], true).state.running
    ensures Run(io, st, inputs + [None], true).out == Run(io, st, inputs, true).out
  {
    RunAppend(io, st, inputs, [None], true);
    var mid := Run(io, st, inputs, true);
    if mid.state.running {
      var eof: seq<Option<string>> := [None];
      assert eof[1..] == [];
    }
    assert mid.out + [] == mid.out;
  }

  /** On reads that are all lines the two readings of end of input agree. */
  lemma {:induction false} RunWithoutEof(io: EngineIo, st: Engine, inputs: seq<Option<string>>)
    requires forall k :: 0 <= k < |inputs| ==> inputs[k].Some?
    ensures Run(io, st, inputs, true) == Run(io, st, inputs, false)
    decreases |inputs|
  {
    if |inputs| > 0 && st.running {
      RunWithoutEof(io, Read(io, st, inputs[0], true).state, inputs[1..]);
    }
  }

  /** The lines `isready`, `uci`, `go` and unknown commands leave the board
      alone; only `position` changes it. */
  lemma {:induction false} OnlyPositionMovesBoard(io: EngineIo, st: Engine, inputs: seq<Option<string>>, eofQuits: bool)
    requires forall k :: 0 <= k < |inputs| && inputs[k].Some? ==> !IsCommand(Split(inputs[k].value), "position")
    ensures Run(io, st, inputs, eofQuits).state.moves == st.moves
    decreases |inputs|
  {
    if |inputs| > 0 && st.running {
      var a := Read(io, st, inputs[0], eofQuits);
      assert a.state.moves == st.moves;
      OnlyPositionMovesBoard(io, a.state, inputs[1..], eofQuits);
    }
  }

  /** The reads of a finite input: every line, then end of input. */
  function Lines(lines: seq<string>): (inputs: seq<Option<string>>)
    ensures |inputs| == |lines| && forall k :: 0 <= k < |lines| ==> inputs[k] == Some(lines[k])
  {
    seq(|lines|, k requires 0 <= k < |lines| => Some(lines[k]))
  }

  /** A whole session with end of input leaving the loop: the engine starts
      on the standard position, reads every line until `quit`, and stops at
      the latest at end of input, having printed what the loop as written
      prints for those lines. */
  function Session(io: EngineIo, lines: seq<string>): (r: Reaction)
    ensures !r.state.running
    ensures r.out == Run(io, Start, Lines(lines), false).out
  {
    EofEndsLoop(io, Start, Lines(lines));
    RunWithoutEof(io, Start, Lines(lines));
    Run(io, Start, Lines(lines) + [None], true)
  }
}
